=== FILE: README.md ===
# Wizard101 quiz bot, modelled in Dafny

This project models the decision logic of a browser bot. The bot takes the
daily Wizard101 trivia quizzes. It answers each question from an answer key
(`quizzes.json`: quiz title → list of `[question, answer]` entries), claims
the reward, and gets through the audio reCAPTCHA by transcribing the audio
challenge. Two revisions of the bot exist, and both are modelled:

- `src/wiz.py` (Playwright) is the current revision. Each run draws ten
  titles at random. For each title it opens the quiz URL and skips the quiz
  if it was already played today. Otherwise it:
  - builds the question → answers index;
  - clicks every accepted choice of each of the twelve questions, or, when no
    choice is accepted, logs the question and clicks the first choice;
  - claims the reward and clears a reCAPTCHA if one appears;
  - logs every score that is not `100%`.

  A failure in most phases closes the browser and ends the run. Some
  failures are caught and the run carries on instead: the throttle probe
  (which means the quiz is played), the reCAPTCHA probe (no challenge), the
  audio-button press, the PLAY press (which reloads the page and retries) and
  the presence probe after Verify (which counts the challenge as solved).
- `wiz.py` (Selenium) is the first revision. It walks the titles in
  dictionary order until ten are counted. On each page it clicks only the
  first choice that matches, and it keeps scanning until twelve questions are
  solved.

Browser calls, waits and clicks are not modelled. What the site shows and
whether each wait or click succeeds are observations passed in as
parameters. Every operation is a pure function over strings and sequences.

| file | module | what it holds |
|---|---|---|
| `optional.dfy` | `Optional` | `Option` |
| `text.dfy` | `Text` | the Python `str` operations used, on ASCII: `strip`, `lower`, `split(" ")`, `join`, `replace`, lines of a text file |
| `slug.dfy` | `Slug` | quiz URL derivation in both revisions, and the non-trivia title list |
| `answerkey.dfy` | `AnswerKey` | entry parsing, the `defaultdict(list)` index, the first revision's scan over the pairs, `process_json` |
| `selection.dfy` | `Selection` | the all-matches policy with its fallback record, and the first-match scan |
| `transcribe.dfy` | `Transcribe` | the text side of `transcribe_audio` (both copies are identical in it) |
| `captcha.dfy` | `Captcha` | the audio reCAPTCHA loop, as written and as intended |
| `quizrun.dfy` | `QuizRun` | one run of the current revision |
| `legacyrun.dfy` | `LegacyRun` | `navigateTrivia` and `solveQuestions` of the first revision |
| `failures.dfy` | `Failures` | the exception classes of `src/exceptions.py` and what their documentation says |

## Model

| member | source | states |
|---|---|---|
| `Slug.TriviaSlug` | src/wiz.py:74-77 | The slug is the stripped, lower-cased title with every space turned into a hyphen, so a run of spaces gives a run of hyphens. `-trivia` is added exactly when the unstripped title is not a non-trivia title. No space is left, and the length is the stripped length plus the suffix. |
| `Slug.LegacySlug` | wiz.py:32-33 | The first revision's slug is the lower-cased title with every space turned into a hyphen, then `-trivia`, with no strip and no exception. It has no space and keeps the title's length before the suffix. |
| `Slug.NonTriviaTitles` | src/wiz.py:68-69 | The non-trivia titles are exactly the stripped non-blank lines: every such line is one, and every member is the stripped form of some line. No member is empty or padded with whitespace. |
| `Slug.QuizUrl` | src/wiz.py:74-77 | The quiz URL is the trivia base followed by exactly the current revision's slug (`TriviaSlug`). It has no space, its length is the base plus the stripped title plus the suffix when one is added, and a trivia title's URL ends in `-trivia`. |
| `Slug.LegacyUrl` | wiz.py:32-33 | The first revision's URL is the trivia base followed by exactly the first revision's slug (`LegacySlug`). It has no space, its length is the base plus the title plus the suffix, and it always ends in `-trivia`. |
| `Slug.PaddedTitleKeepsSuffix` | src/wiz.py:69-77 | The title is checked against the list before it is stripped. A title with surrounding whitespace is therefore never non-trivia and always gets `-trivia`. |
| `Slug.RevisionsAgree` | wiz.py:32-33 | For an unpadded trivia title, both revisions derive the same slug. |
| `Slug.RevisionsDisagree` | src/wiz.py:74-77 | The revisions derive different slugs for a title with leading whitespace and for every non-trivia title. |
| `Slug.DoubleSpaceDoubleHyphen` | src/wiz.py:74 | Two spaces between words give two hyphens ("Fire  Ice" gives "fire--ice-trivia"). |
| `Text.JoinSplitReplace` | src/wiz.py:74 | `"-".join(s.split(" "))` equals replacing every space by a hyphen. |
| `Text.StripInfix` | src/wiz.py:74 | `strip()` keeps exactly the infix between a whitespace prefix and a whitespace suffix. |
| `Text.SplitLines` | src/wiz.py:141-146 | Lines without a newline, written one per line, read back as those lines, followed by the pieces of whatever text comes after them. |
| `AnswerKey.ParsePairs` | src/wiz.py:95-96 | Reading the entries succeeds iff every entry has at least two items. The pairs are then the first two items of each entry, in order. |
| `AnswerKey.Build` | src/wiz.py:93-96 | The index's keys are exactly the entries' questions, and every question, known or not, looks up the scan of the pairs for it. `AnswersForMembership` and `AnswersForAppend` say what that scan holds. |
| `AnswerKey.TotalEntries` | src/wiz.py:93-96 | Over the distinct questions, the index holds exactly one answer per entry. |
| `AnswerKey.EntriesGrow` | src/wiz.py:95-96 | Appending one entry adds exactly one answer, and only under its own question. |
| `AnswerKey.Questions` | src/wiz.py:93-96 | The distinct questions, each once, are exactly the entries' questions. |
| `AnswerKey.AnswersFor` | wiz.py:62-64 | The scan collects at most one answer per pair. |
| `AnswerKey.AnswersForUnknown` | src/wiz.py:132 | A question no entry mentions has no accepted answers (a `defaultdict` read), which is not an error. |
| `AnswerKey.AnswersForMembership` | wiz.py:62-64 | An answer is possible for a question iff some pair holds exactly that question and that answer. |
| `AnswerKey.AnswersForAppend` | wiz.py:62-64 | The scan over the pairs keeps file order: scanning a concatenation gives the scan of each part, in order. |
| `AnswerKey.ProcessJson` | wiz.py:23-25 | After the copy, the keys are the union of both key sets. Every key of `data` has its value from `data`. Every other key keeps its old value. |
| `Selection.Matches` | src/wiz.py:128-137 | The clicked positions are accepted choices, strictly increasing (display order), and include every accepted choice. |
| `Selection.SelectAll` | src/wiz.py:126-149 | With a match, exactly the matches are clicked and nothing is logged. Without one, the record is logged and only the first choice is clicked. With no choice at all the record is logged and the step fails. |
| `Selection.UnmatchedRecord` | src/wiz.py:140-146 | The record starts with the title line, the question line and the `Answer choices:` heading. It holds at least one more line per choice, and it ends in a blank line (two newlines). |
| `Selection.HasMatchIff` | src/wiz.py:128-139 | Some displayed choice is accepted iff the scan finds a match. |
| `Selection.RecordReadsBack` | src/wiz.py:140-146 | Read line by line, the record gives the title line, the question line, the heading, one `- text` line per choice in display order, and the blank line. |
| `Selection.NoMatchTwoChoices` | src/wiz.py:139-149 | With two unknown choices, one record is logged, it reads back as title, question and both choices, and only the first choice is clicked. |
| `Selection.SelectAllOnMatch` | src/wiz.py:128-137 | When some displayed choice is accepted, the step clicks exactly the matches and logs nothing. |
| `Selection.FirstMatch` | wiz.py:66-78 | The chosen position is a possible answer and no earlier choice is one. When nothing is chosen, no choice is a possible answer. |
| `Selection.ScanFirst` | wiz.py:65-78 | The scan clicks the first match and collects the choices up to it. Without a match it collects all the choices once per possible answer, so nothing is collected when there are no possible answers. |
| `Selection.FirstMatchHeadsMatches` | wiz.py:66-78 | The first revision clicks a choice iff the current revision finds a match, and it clicks the first of the current revision's clicks. |
| `Selection.PoliciesAgreeOnSingleMatch` | wiz.py:66-78 | With exactly one accepted choice on display, both revisions click that choice only. |
| `Selection.PoliciesDifferOnNoMatch` | src/wiz.py:139-149 | With no accepted choice, the current revision logs and clicks the first choice, and the first revision clicks nothing. |
| `Transcribe.PunctuationRuns` | src/transcribe.py:16 | The four ASCII punctuation runs are exactly the 32 characters of `string.punctuation`. |
| `Transcribe.DeletePunct` | src/transcribe.py:16 | The translated text holds no punctuation and is no longer than the input. |
| `Transcribe.DeletePunctCounts` | src/transcribe.py:16 | Every character other than punctuation is kept as often as it occurred, and nothing is added. |
| `Transcribe.DeletePunctInOrder` | transcribe.py:16 | The kept characters stay in their original order. |
| `Transcribe.TranscribeAudio` | src/transcribe.py:7-17 | A transcript exists iff the download answered 200; otherwise the function falls through to `None`. The transcript has no punctuation, no upper-case letter, and is no longer than the joined segments. It is a subsequence of the stripped, lower-cased join that keeps every character other than punctuation as often as it occurred. |
| `Transcribe.Normalize` | transcribe.py:15-16 | The transcript holds no ASCII punctuation and no upper-case ASCII letter, and it is no longer than the join. |
| `Transcribe.CleanIsClean` | transcribe.py:15-16 | Lower-casing and then deleting punctuation leaves no punctuation and no upper case, and never lengthens the text. |
| `Transcribe.NormalizeKeepsText` | src/transcribe.py:15-16 | The transcript drops only punctuation from the stripped, lower-cased join. It is a subsequence of that text, and every other character is kept as often as it occurred. |
| `Transcribe.PunctDroppedExact` | src/transcribe.py:16 | A punctuation-free subsequence that keeps every other character's count is exactly the text with its punctuation deleted. So the two facts above pin the transcript down. |
| `Transcribe.CleanIdempotent` | transcribe.py:16 | Lower-casing and deleting punctuation a second time changes nothing. |
| `Transcribe.EdgeSpaceSurvives` | src/transcribe.py:15-16 | Punctuation is deleted after stripping, so a word, a space and a punctuation mark leave the space at the end of the transcript ("Hello ." gives "hello "). |
| `Captcha.Try` | src/wiz.py:226-267 | A failed PLAY press reloads the page, and nothing else does; if that reload fails, the round breaks. A transcript is submitted iff PLAY, the audio URL, the 200 download and Verify all succeed, and it is then the transcript of the round's audio. A round that breaks leaves at most one typed text. |
| `Captcha.ClearWith` | src/wiz.py:224-280 | The loop ends cleared after a submission that does not continue, or aborted after a round that breaks. Every earlier round continued. A loop still running has only continuing rounds. Every typed text is a clean transcript. |
| `Captcha.TypedIsClean` | src/wiz.py:249-252 | Whatever a round types is free of punctuation and upper case. |
| `Captcha.ClearAsWritten` | src/wiz.py:269-280 | As written, the loop goes on only after a failed PLAY press. The first submission that gets through Verify ends it as cleared. It is still running iff every round reloaded the page after a failed PLAY press. |
| `Captcha.Clear` | src/wiz.py:224-280 | As intended, the round that clears the challenge is a submission after which the challenge is gone or cannot be reloaded. Every earlier round either reloaded or was a submission the challenge survived with a working reload. Every typed text is a clean transcript. |
| `Captcha.ProbeMissesChallenge` | src/wiz.py:269-280 | A submission that leaves the challenge on display is counted as cleared by the loop as written, while the intended loop keeps going. |
| `QuizRun.SurvivingChallengeIgnored` | src/wiz.py:269-280 | As written, a challenge that survives the first submission is ignored: the quiz ends as if no reCAPTCHA had appeared. With a working probe, once the reward is claimed and the popup submitted, the same quiz stays in the loop and hangs when the observed rounds run out. |
| `Captcha.ProbeMattersOnlyWhenShown` | src/wiz.py:269-280 | When the challenge never survives a submission, the two loops agree. |
| `Captcha.TypedCount` | src/wiz.py:248-252 | At most one text is typed per round. Rounds whose PLAY press fails and whose page reload works type nothing and leave the loop running, with either presence probe. |
| `QuizRun.AnswerShown` | src/wiz.py:126-175 | One read question: the matches are clicked, or, without a match, the record is written and the first choice is clicked. The record is kept even when that fallback click fails. The step succeeds iff a choice is on display, a match exists or the fallback click works, and Next works. |
| `QuizRun.AnswerPage` | src/wiz.py:103-175 | An unreadable question fails in ReadQuestion, and a failing scan fails in SelectAnswer with nothing recorded. After a working scan, a record is written iff no choice matches. A page passes iff it is readable, the scan works, a choice is on display, a match exists or the fallback click works, and Next works. Clicks stay within the displayed choices. |
| `QuizRun.AnswerFrom` | src/wiz.py:103-175 | A completed answer loop has one click list per remaining question. A failed one stops in an answering phase. When Next fails it still reports the failing page's click list, so it has at least one; any other failure ends before all remaining questions are reported. |
| `QuizRun.AnswerFromClicks` | src/wiz.py:126-175 | Every reported click list is what its page clicked, in question order. A loop that fails in Next reports the clicks already made on the failing page as its last list. Any other failure is the failure of the page after the reported ones. |
| `QuizRun.AnswerFromRecords` | src/wiz.py:139-146 | The new-question log gets the records of every page the loop reached, in question order, the failing page included, and of no other page. |
| `QuizRun.AnswerFromCompletes` | src/wiz.py:103-175 | The answer loop gets through all twelve questions iff every page passes (as `AnswerPage` defines passing). |
| `QuizRun.Finish` | src/wiz.py:176-303 | The reward is claimed iff the claim click works; a failed claim fails in ClaimReward and a failed popup in RewardPopup. The quiz is scored iff claim, popup and reCAPTCHA go through, the score is read, and the answer sheet is logged when the score is imperfect. The score is the stripped score text. Once the score is read, the result log gets writes iff it is not `100%`, the first write being the score header and the second the answer sheet; an unreadable score fails in LogResults with no write. The reCAPTCHA loop is the one as written when `probeWorks` is false and the intended one when it is true. A hang happens iff that loop is still running, and the quiz fails in SolveCaptcha iff that loop aborts. |
| `QuizRun.ScoreHeader` | src/wiz.py:291 | The header holds the title and the score at their places and ends in a blank line; its length is the two plus 32 characters of fixed text. |
| `QuizRun.ProcessQuiz` | src/wiz.py:78-303 | With either reCAPTCHA loop: a throttled quiz is skipped: no answers, no log, no claim. A navigation failure is reported as such. On a quiz not yet played, a malformed entry is exactly what fails in BuildKey. Otherwise the clicks and records are the answer loop's; a failed loop fails in its phase with no claim and no log, and a completed one ends as `Finish` says. A claim comes only after exactly twelve answered questions. |
| `QuizRun.ProcessQuizEndsRun` | src/wiz.py:78-303 | A quiz ends the run iff its page fails to load, or, on a quiz not yet played, an entry is malformed, some question page does not pass, the claim, popup or reCAPTCHA does not go through, the score cannot be read, or an imperfect score's answer sheet cannot be logged. |
| `QuizRun.FinishEndsRun` | src/wiz.py:176-300 | After the last question, the quiz ends the run iff the claim, popup or reCAPTCHA does not go through, the score cannot be read, or an imperfect score's answer sheet cannot be logged. |
| `QuizRun.Reached` | src/wiz.py:71-82 | The loop visits titles up to and including the first quiz that fails or hangs, and no further. |
| `QuizRun.Tour` | src/wiz.py:71-78 | Visits are the drawn titles in order, each at its current-revision URL. Only the last one may end the run, and it does when the run stops early. |
| `QuizRun.Run` | src/wiz.py:71-303 | Fewer than ten titles in the key means the draw fails. Otherwise one to ten distinct titles are visited, in drawn order. Every visit but the last lets the run go on, and a run that stops early ends on a failed or hung quiz. |
| `QuizRun.RunVisitsQuizzes` | src/wiz.py:71-78 | Each visit is at the title's URL, and its report is what that title's quiz does. |
| `LegacyRun.PassPick` | wiz.py:55-78 | One pass clicks the first displayed choice that some pair gives as the question's answer, or nothing when no choice is such an answer. |
| `LegacyRun.SolveFrom` | wiz.py:49-92 | Each pass clicks at most one choice. The number solved never exceeds twelve. The reward is claimed iff twelve passes clicked and the claim waits work. An unfinished loop has used every observed pass. |
| `LegacyRun.CrashKeepsChoice` | wiz.py:70-75 | A crashed quiz keeps a clicked choice iff the pass after the completed ones picked a possible answer whose click worked and whose Next click then raised, and the kept choice is that pick. |
| `LegacyRun.SolveQuestions` | wiz.py:48-92 | Starting from zero, the reward is claimed iff exactly twelve passes clicked a choice, which takes at least twelve passes. |
| `LegacyRun.PicksFollowScans` | wiz.py:62-78 | Each pass clicks what the first-match rule picks on the page it read. |
| `LegacyRun.UnknownQuestionStalls` | wiz.py:50-83 | A question none of whose choices is a possible answer clicks nothing, counts nothing, and keeps the loop scanning. |
| `LegacyRun.VisitTitle` | wiz.py:31-46 | A title is opened at its first-revision URL. A "come back tomorrow" page marks it done, a page that fails to load raises, and otherwise its quiz is taken. |
| `LegacyRun.Reach` | wiz.py:28-46 | The loop stops once ten are counted or after a visit that is not counted. Every visit but the last is counted. |
| `LegacyRun.NavigateFrom` | wiz.py:27-46 | Every visit but the last is done-for-today or claimed. The loop finishes iff the last visit counted, and then it has taken every title or reached ten. It is stuck iff a quiz never finished scanning. |
| `LegacyRun.NavigateTrivia` | wiz.py:104 | Started at zero, at most ten titles are visited. A finished loop visits ten titles, or every title of the key when there are fewer. |
| `LegacyRun.VisitsFollowOrder` | wiz.py:28-34 | The visits follow the dictionary order, each title visited as `VisitTitle` says. |
| `LegacyRun.CompletedTitlesCount` | wiz.py:35-40 | Titles done for today count toward the ten: if every title is done, the loop visits up to the cap or all titles and finishes. |
| `Failures.Parent` | src/exceptions.py:5-44 | The base class has no parent among the bot's classes, and every other class derives from it directly. |
| `Failures.AllAreBase` | src/exceptions.py:5-44 | Every class is a `QuizBotException`. |
| `Failures.SpecificsUnrelated` | src/exceptions.py:9-44 | No specific class derives from another. |
| `Failures.Raised` | src/exceptions.py:9-44 | The file-loading class covers exactly a missing and a malformed file. The reCAPTCHA class covers exactly bot detection and repeated failure. The completed class covers exactly a quiz already taken today. The base class stands for no circumstance. |
| `Failures.EveryClassUsed` | src/exceptions.py:9-44 | Every specific class stands for some documented circumstance. |
| `Failures.Advice` | src/exceptions.py:13-25 | A reCAPTCHA failure calls for a browser restart and a different quiz. A processing failure calls for no restart. No other class says either. |
| `Failures.AdviceForErrorsOnly` | src/exceptions.py:39-43 | A completed quiz is flow control, not an error, and only errors come with restart advice. Only a failed reCAPTCHA calls for a restart. |

## Left out

- Browser automation (Playwright, Selenium): every locator, wait, click, frame switch, reload and sleep is an observation parameter. The page reload after a failed PLAY press (src/wiz.py:235) is the `pageReloadOk` observation. It is not guarded, so its failure ends the run.
- Login and setup are not modelled (src/wiz.py:1-63, wiz.py:9-15, wiz.py:96-105), and neither are the credentials read from the environment.
- File I/O is not modelled. Reading `quizzes.json` and `nontrivia_urls.txt` gives parameters. Appends to `new_questions.txt` and `quiz_log.txt` are the listed writes (`records`, `quizLog`).
- `random.sample` is a parameter: any ten distinct keys. Its `ValueError` for fewer than ten keys is the `SampleTooSmall` outcome.
- The HTTP download and the speech model are parameters: the status code and the segment texts.
- Only ASCII is modelled: Python's Unicode `lower()`, `strip()` and `isspace()` are restricted to ASCII characters.
- Printing is not modelled. This covers the score print in the `finally` clause (src/wiz.py:302-303), including the case where `quiz_score` is still unbound. A failed audio-button press in src/wiz.py:215-222 only prints, so it has no effect in the model.
- `QuizRun.AnswerPage`: a wait or click that fails partway through the scan leaves no clicks and no record in the model. The source may already have clicked some matches before failing.
- `AnswerKey.AnswersFor`: its contract only bounds the number of answers. Which answers it holds, and in what order, is stated by `AnswersForMembership` and `AnswersForAppend`. A quantified contract on the function itself makes every proof about the index too costly.
- `LegacyRun.NavigateFrom`: the dictionary's insertion order is a parameter (`order`), required to list every title of the key exactly once. After `process_json` this is the order of `quizzes.json`, which the model does not read.
- `QuizRun.Finish`: the reCAPTCHA loop has no bound of its own. The model runs it over the finite list of observed rounds and reports `Hung` when they run out. For the same reason it cannot state that the loop terminates.
- `LegacyRun.SolveFrom`: entries of the first revision's key are taken as well-formed pairs. A malformed entry (an `IndexError` in wiz.py:62-64) is not modelled. Lookups of the choice elements (wiz.py:68-70) are taken to succeed.
- `LegacyRun.NavigateFrom`: an exception raised by `solveQuestions` or `driver.get` ends the program, and the model reports it as `Aborted`. A quiz that never reaches twelve solved questions is `Stuck` once the observed passes run out.
- The module-level call in transcribe.py:21 and the print in transcribe.py:17 are not modelled.
- Recovery by restarting or requeueing is not modelled: no source file implements it. `Failures` records only what the exception documentation says.

## Findings

| source | as written | input that shows it | evidently intended | confidence | as-written member | corrected member |
|---|---|---|---|---|---|---|
| src/wiz.py:269-280 | The presence probe calls `wait_for` on a `FrameLocator`, which has no such method. The probe always raises, and the bare `except` marks the reCAPTCHA solved after the first submission that gets through Verify. | A round whose PLAY, audio URL, 200 download and Verify succeed while the challenge stays on display with a working reload button (`ProbeMissesChallenge`). | Reload and answer again while the challenge is still displayed, and end the loop only when it is gone. | high by API reading; not executed | `Captcha.ClearAsWritten` | `Captcha.Clear` (`QuizRun.Finish` runs it when `probeWorks` is true, and the loop as written when it is false) |

=== FILE: answerkey.dfy ===
/**
 The answer key of a quiz: the `[question, answer]` entries of quizzes.json and
 the question -> answers index built from them. A question may have several
 accepted answers; a question the key does not know has none, which is not an
 error.
 */
module AnswerKey {
  import opened Optional

  /** One `[question, answer]` entry. */
  type Pair = (string, string)

  /** The index: each known question with its accepted answers in file order. */
  type Key = map<string, seq<string>>

  /**
   The entries as the JSON file gives them, lists of strings. Reading
   `entry[0]` and `entry[1]` fails on a list shorter than two; further items
   are ignored.
   */
  function ParsePairs(entries: seq<seq<string>>): (r: Option<seq<Pair>>)
    ensures r.Some? <==> forall i :: 0 <= i < |entries| ==> |entries[i]| >= 2
    ensures r.Some? ==> |r.value| == |entries|
    ensures r.Some? ==> forall i :: 0 <= i < |entries| ==> r.value[i] == (entries[i][0], entries[i][1])
  {
    if |entries| == 0 then Some([])
    else if |entries[0]| < 2 then None
    else
      match ParsePairs(entries[1..])
      case None => None
      case Some(rest) => Some([(entries[0][0], entries[0][1])] + rest)
  }

  function QuestionSet(pairs: seq<Pair>): set<string> {
    set i | 0 <= i < |pairs| :: pairs[i].0
  }

  lemma QuestionSetSnoc(init: seq<Pair>, p: Pair)
    ensures QuestionSet(init + [p]) == QuestionSet(init) + {p.0}
  {
    var pairs := init + [p];
    assert forall i :: 0 <= i < |init| ==> pairs[i] == init[i];
    assert pairs[|init|] == p;
  }

  /**
   The answers of every entry whose question is exactly `q`, in file order,
   duplicates kept: the scan `for pair in qa_pairs: if text == pair[0]: append(pair[1])`.
   */
  function AnswersFor(pairs: seq<Pair>, q: string): (r: seq<string>)
    ensures |r| <= |pairs|
  {
    if |pairs| == 0 then []
    else
      var last := pairs[|pairs| - 1];
      AnswersFor(pairs[..|pairs| - 1], q) + (if last.0 == q then [last.1] else [])
  }

  /** A read of the `defaultdict(list)` index: an unknown question yields no answers. */
  function Lookup(key: Key, q: string): seq<string> {
    if q in key then key[q] else []
  }

  /**
   The loop `answer_key[question[0]].append(question[1])` over the entries in
   order: the index knows exactly the questions of the entries, and gives each
   the answers of its entries in file order, one per entry.
   */
  function Build(pairs: seq<Pair>): (key: Key)
    ensures key.Keys == QuestionSet(pairs)
    ensures forall q :: Lookup(key, q) == AnswersFor(pairs, q)
  {
    if |pairs| == 0 then map[]
    else
      var init := pairs[..|pairs| - 1];
      var last := pairs[|pairs| - 1];
      var key := Build(init);
      QuestionSetSnoc(init, last);
      assert init + [last] == pairs;
      key[last.0 := Lookup(key, last.0) + [last.1]]
  }

  /** The scan over a concatenation is the scan over each part, in order. */
  lemma {:induction false} AnswersForAppend(a: seq<Pair>, b: seq<Pair>, q: string)
    ensures AnswersFor(a + b, q) == AnswersFor(a, q) + AnswersFor(b, q)
    decreases |b|
  {
    if |b| > 0 {
      var last := b[|b| - 1];
      assert (a + b)[..|a + b| - 1] == a + b[..|b| - 1];
      AnswersForAppend(a, b[..|b| - 1], q);
    } else {
      assert a + b == a;
    }
  }

  /** An answer is accepted for a question exactly when some entry pairs them. */
  lemma {:induction false} AnswersForMembership(pairs: seq<Pair>, q: string, a: string)
    ensures a in AnswersFor(pairs, q) <==> (q, a) in pairs
  {
    if |pairs| > 0 {
      var init := pairs[..|pairs| - 1];
      AnswersForMembership(init, q, a);
      assert pairs == init + [pairs[|pairs| - 1]];
    }
  }

  /** A question no entry mentions has no accepted answers. */
  lemma {:induction false} AnswersForUnknown(pairs: seq<Pair>, q: string)
    requires q !in QuestionSet(pairs)
    ensures AnswersFor(pairs, q) == []
  {
    if |pairs| > 0 {
      var init := pairs[..|pairs| - 1];
      assert QuestionSet(init) <= QuestionSet(pairs);
      AnswersForUnknown(init, q);
      assert pairs[|pairs| - 1].0 in QuestionSet(pairs);
    }
  }

  /** The questions of the entries, each once, in order of first appearance. */
  function Questions(pairs: seq<Pair>): (qs: seq<string>)
    ensures forall i, j :: 0 <= i < j < |qs| ==> qs[i] != qs[j]
    ensures forall q :: q in qs <==> q in QuestionSet(pairs)
  {
    if |pairs| == 0 then []
    else
      var init := pairs[..|pairs| - 1];
      var q := pairs[|pairs| - 1].0;
      var qs := Questions(init);
      assert pairs == init + [pairs[|pairs| - 1]];
      assert QuestionSet(pairs) == QuestionSet(init) + {q};
      if q in qs then qs else qs + [q]
  }

  /** The number of answers the index holds for the questions `qs`. */
  function Entries(key: Key, qs: seq<string>): nat {
    if |qs| == 0 then 0 else Entries(key, qs[..|qs| - 1]) + |Lookup(key, qs[|qs| - 1])|
  }

  lemma AnswersForSnoc(init: seq<Pair>, p: Pair, q: string)
    ensures AnswersFor(init + [p], q) == AnswersFor(init, q) + (if p.0 == q then [p.1] else [])
  {
    assert (init + [p])[..|init|] == init;
  }

  /** One more entry adds one answer to the count of any list of distinct questions holding its question. */
  lemma {:induction false} EntriesGrow(init: seq<Pair>, p: Pair, qs: seq<string>)
    requires forall i, j :: 0 <= i < j < |qs| ==> qs[i] != qs[j]
    ensures Entries(Build(init + [p]), qs) == Entries(Build(init), qs) + (if p.0 in qs then 1 else 0)
  {
    if |qs| > 0 {
      var front := qs[..|qs| - 1];
      var q := qs[|qs| - 1];
      EntriesGrow(init, p, front);
      var after := Build(init + [p]);
      var before := Build(init);
      assert Entries(after, qs) == Entries(after, front) + |Lookup(after, q)|;
      assert Entries(before, qs) == Entries(before, front) + |Lookup(before, q)|;
      AnswersForSnoc(init, p, q);
      assert p.0 in qs <==> p.0 in front || p.0 == q;
      assert !(p.0 in front && p.0 == q);
    }
  }

  /** The index holds exactly one answer per entry of the quiz. */
  lemma {:induction false} TotalEntries(pairs: seq<Pair>)
    ensures Entries(Build(pairs), Questions(pairs)) == |pairs|
  {
    if |pairs| > 0 {
      var init := pairs[..|pairs| - 1];
      var p := pairs[|pairs| - 1];
      assert pairs == init + [p];
      var qs := Questions(init);
      TotalEntries(init);
      EntriesGrow(init, p, qs);
      if p.0 !in qs {
        AnswersForUnknown(init, p.0);
        assert AnswersFor(pairs, p.0) == [p.1];
        assert Questions(pairs) == qs + [p.0];
        assert Questions(pairs)[..|Questions(pairs)| - 1] == qs;
      }
    }
  }

  /**
   `process_json(data, questions)`: every entry of `data` is copied into
   `questions`, overwriting an entry of the same title; titles only in
   `questions` keep their value.
   */
  method ProcessJson<V>(data: map<string, V>, questions: map<string, V>) returns (merged: map<string, V>)
    ensures merged.Keys == questions.Keys + data.Keys
    ensures forall k :: k in data ==> merged[k] == data[k]
    ensures forall k :: k in questions && k !in data ==> merged[k] == questions[k]
  {
    merged := questions;
    var pending := data.Keys;
    while pending != {}
      invariant pending <= data.Keys
      invariant merged.Keys == questions.Keys + (data.Keys - pending)
      invariant forall k :: k in data && k !in pending ==> merged[k] == data[k]
      invariant forall k :: k in questions && k !in data ==> merged[k] == questions[k]
      decreases pending
    {
      var k :| k in pending;
      merged := merged[k := data[k]];
      pending := pending - {k};
    }
  }
}

=== FILE: captcha.dfy ===
/**
 The audio reCAPTCHA loop that may stand between the reward popup and the
 score (src/wiz.py, lines 201-280). Each pass of the loop is one round: press
 PLAY, read the audio URL, type the transcript, press Verify, then probe
 whether the challenge is still on display. The page's behaviour in a round is
 an observation; the loop has no bound of its own, so a finite list of rounds
 either reaches an exit or leaves the loop still running.

 As written, the presence probe calls `wait_for` on a frame locator, which has
 no such method; the probe therefore always raises, and the bare `except`
 around it declares the challenge solved after the first verified
 submission. `ClearAsWritten` is that loop. `Clear` is the loop with a probe
 that sees the challenge, the evidently intended one. `ClearWith` is both,
 chosen by `probeWorks`, and `QuizRun.Finish` passes that choice on.
 */
module Captcha {
  import opened Optional
  import opened Text
  import Transcribe

  /**
   What the page does in one pass of the loop. `status` and `segments` are
   what the audio download and the speech model give the transcriber;
   `stillShown` is whether the challenge is still displayed after Verify, and
   `reloadOk` whether pressing its reload button then succeeds.
   `pageReloadOk` is whether reloading the whole page after a failed PLAY
   press succeeds; that reload sits in the `except` clause, so its failure
   escapes the loop and ends the program.
   */
  datatype Round = Round(playOk: bool, pageReloadOk: bool, urlOk: bool, status: int, segments: seq<string>,
                         verifyOk: bool, stillShown: bool, reloadOk: bool)

  /**
   The part of a round before the presence probe: a failed PLAY press reloads
   the page and starts the next round, unless the reload itself fails; a
   missing audio URL, a missing
   transcript (the download did not answer 200, and typing `None` raises) or
   a failed Verify press closes the browser; otherwise the transcript has been
   typed and submitted.
   */
  datatype Attempt = Reloaded | Broke(typed: seq<string>) | Submitted(text: string)

  /** Whether a round's PLAY press fails and the page reload after it works. */
  predicate Reloads(r: Round) {
    !r.playOk && r.pageReloadOk
  }

  /** Whether a round gets its transcript through Verify. */
  predicate Submits(r: Round) {
    r.playOk && r.urlOk && r.status == Transcribe.StatusOk && r.verifyOk
  }

  function Try(r: Round): (a: Attempt)
    ensures a.Reloaded? <==> Reloads(r)
    ensures a.Submitted? <==> Submits(r)
    ensures a.Submitted? ==> r.playOk && r.urlOk && r.verifyOk
    ensures a.Submitted? ==> Transcribe.TranscribeAudio(r.status, r.segments) == Some(a.text)
    ensures a.Broke? ==> |a.typed| <= 1
  {
    if !r.playOk then (if r.pageReloadOk then Reloaded else Broke([]))
    else if !r.urlOk then Broke([])
    else
      match Transcribe.TranscribeAudio(r.status, r.segments)
      case None => Broke([])
      case Some(t) => if r.verifyOk then Submitted(t) else Broke([t])
  }

  /**
   How the loop ended within the observed rounds: cleared or aborted after
   `used` rounds, or still running when they ran out. `typed` lists every
   transcript typed into the answer box, in order.
   */
  datatype Clearance = Cleared(used: nat, typed: seq<string>)
                     | CaptchaAborted(used: nat, typed: seq<string>)
                     | StillLooping(typed: seq<string>)

  /**
   Whether the loop goes on after round `r`: after a page reload, and, when the
   probe can see the page, after a submission the challenge survived and
   whose reload press worked. A failing reload press raises inside the probe's
   `try`, which also ends the loop as solved.
   */
  predicate Continues(r: Round, probeWorks: bool) {
    Reloads(r) || (probeWorks && Submits(r) && r.stillShown && r.reloadOk)
  }

  /** A transcript as typed: no ASCII punctuation and no upper-case ASCII letter. */
  predicate CleanText(t: string) {
    forall i :: 0 <= i < |t| ==> !Transcribe.IsPunct(t[i]) && !IsUpper(t[i])
  }

  /** The text a round leaves in the answer box, if any. */
  function TypedIn(a: Attempt): seq<string> {
    match a
    case Reloaded => []
    case Broke(typed) => typed
    case Submitted(t) => [t]
  }

  /** The loop's end one round later, with `typed` typed in the round before. */
  function After(typed: seq<string>, c: Clearance): (d: Clearance)
    ensures d.Cleared? == c.Cleared? && d.CaptchaAborted? == c.CaptchaAborted? && d.StillLooping? == c.StillLooping?
    ensures !d.StillLooping? ==> d.used == c.used + 1
    ensures d.typed == typed + c.typed
  {
    match c
    case Cleared(used, t) => Cleared(used + 1, typed + t)
    case CaptchaAborted(used, t) => CaptchaAborted(used + 1, typed + t)
    case StillLooping(t) => StillLooping(typed + t)
  }

  /** The loop, with or without a working presence probe. */
  function ClearWith(rounds: seq<Round>, probeWorks: bool): (c: Clearance)
    ensures c.Cleared? || c.CaptchaAborted? ==> 0 < c.used <= |rounds|
    ensures c.Cleared? ==> Submits(rounds[c.used - 1]) && !Continues(rounds[c.used - 1], probeWorks)
    ensures c.CaptchaAborted? ==> !Reloads(rounds[c.used - 1]) && !Submits(rounds[c.used - 1])
    ensures c.Cleared? || c.CaptchaAborted? ==> forall j :: 0 <= j < c.used - 1 ==> Continues(rounds[j], probeWorks)
    ensures c.StillLooping? ==> forall j :: 0 <= j < |rounds| ==> Continues(rounds[j], probeWorks)
    ensures forall k :: 0 <= k < |c.typed| ==> CleanText(c.typed[k])
  {
    if |rounds| == 0 then StillLooping([])
    else
      var r := rounds[0];
      var a := Try(r);
      TypedIsClean(r);
      if Continues(r, probeWorks) then
        After(TypedIn(a), ClearWith(rounds[1..], probeWorks))
      else if a.Broke? then CaptchaAborted(1, a.typed)
      else Cleared(1, TypedIn(a))
  }

  lemma TypedIsClean(r: Round)
    ensures forall k :: 0 <= k < |TypedIn(Try(r))| ==> CleanText(TypedIn(Try(r))[k])
  {
  }

  /**
   The loop as written: the loop goes on only after a page reload, and
   the first submission that gets through Verify ends it as solved, whatever
   the page shows afterwards.
   */
  function ClearAsWritten(rounds: seq<Round>): (c: Clearance)
    ensures c.Cleared? ==> 0 < c.used <= |rounds| && Submits(rounds[c.used - 1])
    ensures c.Cleared? || c.CaptchaAborted? ==> 0 < c.used <= |rounds| && forall j :: 0 <= j < c.used - 1 ==> Reloads(rounds[j])
    ensures c.StillLooping? <==> forall j :: 0 <= j < |rounds| ==> Reloads(rounds[j])
  {
    var c := ClearWith(rounds, false);
    if c.Cleared? || c.CaptchaAborted? then
      assert !Continues(rounds[c.used - 1], false);
      c
    else c
  }

  /**
   The loop as intended: a submission ends it as solved only when the
   challenge is gone or cannot be reloaded; a challenge still on display is
   reloaded and answered again.
   */
  function Clear(rounds: seq<Round>): (c: Clearance)
    ensures c.Cleared? ==> 0 < c.used <= |rounds| && Submits(rounds[c.used - 1])
    ensures c.Cleared? ==> 0 < c.used <= |rounds| && !(rounds[c.used - 1].stillShown && rounds[c.used - 1].reloadOk)
    ensures c.Cleared? || c.CaptchaAborted? ==> 0 < c.used <= |rounds| && forall j :: 0 <= j < c.used - 1 ==>
      Reloads(rounds[j]) || (Submits(rounds[j]) && rounds[j].stillShown && rounds[j].reloadOk)
    ensures forall k :: 0 <= k < |c.typed| ==> CleanText(c.typed[k])
  {
    ClearWith(rounds, true)
  }

  /**
   The discrepancy: a round whose transcript is submitted while the challenge
   stays on display ends the loop as written, and sends the intended loop
   round again.
   */
  lemma ProbeMissesChallenge(r: Round)
    requires r.playOk && r.urlOk && r.status == Transcribe.StatusOk && r.verifyOk
    requires r.stillShown && r.reloadOk
    ensures ClearAsWritten([r]) == Cleared(1, [Transcribe.Normalize(r.segments)])
    ensures Clear([r]) == StillLooping([Transcribe.Normalize(r.segments)])
  {
    var t := Transcribe.Normalize(r.segments);
    assert Try(r) == Submitted(t);
    assert [r][1..] == [];
    assert ClearWith([], true) == StillLooping([]);
    assert [t] + [] == [t];
  }

  /** Where the challenge never survives a submission, the probe makes no difference. */
  lemma ProbeMattersOnlyWhenShown(rounds: seq<Round>)
    requires forall j :: 0 <= j < |rounds| ==> !(rounds[j].stillShown && rounds[j].reloadOk)
    ensures Clear(rounds) == ClearAsWritten(rounds)
  {
    ProbeIrrelevant(rounds);
  }

  lemma {:induction false} ProbeIrrelevant(rounds: seq<Round>)
    requires forall j :: 0 <= j < |rounds| ==> !(rounds[j].stillShown && rounds[j].reloadOk)
    ensures ClearWith(rounds, true) == ClearWith(rounds, false)
  {
    if |rounds| > 0 {
      var rest := rounds[1..];
      assert forall j :: 0 <= j < |rest| ==> rest[j] == rounds[j + 1];
      ProbeIrrelevant(rest);
      assert Continues(rounds[0], true) == Continues(rounds[0], false);
    }
  }

  /** Every transcript typed is followed by Verify or by the end of the run; a page reload types nothing. */
  lemma {:induction false} TypedCount(rounds: seq<Round>, probeWorks: bool)
    ensures |ClearWith(rounds, probeWorks).typed| <= |rounds|
    ensures (forall j :: 0 <= j < |rounds| ==> Reloads(rounds[j])) ==> ClearWith(rounds, probeWorks) == StillLooping([])
  {
    if |rounds| > 0 {
      TypedCount(rounds[1..], probeWorks);
    }
  }
}

=== FILE: failures.dfy ===
/**
 The bot's own exception classes (src/exceptions.py): one base class and six
 specific ones derived from it. No code of the bot raises or handles them;
 what they mean is what their documentation says: the circumstances each one
 stands for, whether recovering from it calls for a browser restart, and
 whether it is an error at all.
 */
module Failures {
  import opened Optional

  /** The exception classes. `Base` is the common ancestor of all the others. */
  datatype Kind = Base | FileLoading | RecaptchaFailed | QuizProcessing | Login | Navigation | QuizCompleted

  /** The class a class is declared to derive from, among the bot's own classes. */
  function Parent(k: Kind): (p: Option<Kind>)
    ensures p.None? <==> k == Base
    ensures p.Some? ==> p.value == Base
  {
    if k == Base then None else Some(Base)
  }

  /** `k` is `ancestor` or derives from it, as `isinstance` would see it. */
  predicate IsA(k: Kind, ancestor: Kind)
    decreases if k == Base then 0 else 1
  {
    k == ancestor || (Parent(k).Some? && IsA(Parent(k).value, ancestor))
  }

  /** Every class is a `Base`, so one handler for the base class catches them all. */
  lemma AllAreBase(k: Kind)
    ensures IsA(k, Base)
  {
  }

  /** The specific classes are unrelated: none catches another. */
  lemma SpecificsUnrelated(k: Kind, other: Kind)
    requires k != Base && other != Base && k != other
    ensures !IsA(k, other)
  {
    assert Parent(k) == Some(Base);
  }

  /** The circumstances the documentation names. */
  datatype Circumstance =
    | FileMissing | FileMalformed                  // the quizzes file is absent or not valid JSON
    | BotDetected | RepeatedCaptchaFailure          // reCAPTCHA gives up on the bot
    | Timeout | ElementMissing                      // a technical error while processing a quiz
    | BadCredentials | SiteProblemAtLogin           // the login fails
    | UrlFailed | PageNotLoaded                     // the quiz page cannot be reached
    | CompletedToday                                // the quiz was already taken today

  /** The class the documentation assigns to each circumstance. */
  function Raised(c: Circumstance): (k: Kind)
    ensures k != Base
    ensures k == FileLoading <==> c == FileMissing || c == FileMalformed
    ensures k == RecaptchaFailed <==> c == BotDetected || c == RepeatedCaptchaFailure
    ensures k == QuizCompleted <==> c == CompletedToday
  {
    match c
    case FileMissing => FileLoading
    case FileMalformed => FileLoading
    case BotDetected => RecaptchaFailed
    case RepeatedCaptchaFailure => RecaptchaFailed
    case Timeout => QuizProcessing
    case ElementMissing => QuizProcessing
    case BadCredentials => Login
    case SiteProblemAtLogin => Login
    case UrlFailed => Navigation
    case PageNotLoaded => Navigation
    case CompletedToday => QuizCompleted
  }

  /** Every specific class stands for some circumstance. */
  lemma EveryClassUsed(k: Kind)
    requires k != Base
    ensures exists c :: Raised(c) == k
  {
    match k
    case FileLoading => assert Raised(FileMissing) == k;
    case RecaptchaFailed => assert Raised(BotDetected) == k;
    case QuizProcessing => assert Raised(Timeout) == k;
    case Login => assert Raised(BadCredentials) == k;
    case Navigation => assert Raised(UrlFailed) == k;
    case QuizCompleted => assert Raised(CompletedToday) == k;
  }

  /**
   Recovery as documented: whether the browser should be restarted (`None`
   where the documentation says nothing) and whether to move on to a
   different quiz.
   */
  datatype Recovery = Recovery(restart: Option<bool>, otherQuiz: bool)

  function Advice(k: Kind): (r: Recovery)
    ensures r.restart == Some(true) <==> k == RecaptchaFailed
    ensures r.restart == Some(false) <==> k == QuizProcessing
    ensures r.otherQuiz <==> k == RecaptchaFailed
  {
    match k
    case RecaptchaFailed => Recovery(Some(true), true)
    case QuizProcessing => Recovery(Some(false), false)
    case _ => Recovery(None, false)
  }

  /** A quiz already taken today is a signal for the control flow, not an error. */
  predicate IsError(k: Kind) {
    k != QuizCompleted
  }

  /**
   Only errors come with recovery advice, and among the circumstances only a
   failed reCAPTCHA calls for a restart; a completed quiz calls for none.
   */
  lemma AdviceForErrorsOnly(c: Circumstance)
    ensures Advice(Raised(c)).restart.Some? ==> IsError(Raised(c))
    ensures Advice(Raised(c)).restart == Some(true) <==> c == BotDetected || c == RepeatedCaptchaFailure
    ensures !IsError(Raised(c)) <==> c == CompletedToday
  {
  }
}

=== FILE: legacyrun.dfy ===
/**
 The first revision of the bot (wiz.py): `navigateTrivia` walks the loaded
 titles in dictionary order until ten have been counted, and `solveQuestions`
 answers one quiz by scanning the page until twelve questions are solved.

 The browser is not modelled. What the site shows for a title is an
 observation: unreachable (the page load raises), already completed today, or
 open, with one `Scan` per pass of the question loop and whether the
 reward-claiming waits succeed.
 */
module LegacyRun {
  import opened Optional
  import opened AnswerKey
  import Slug
  import Selection

  /** The loop stops scanning after this many solved questions. */
  const QuestionCount: nat := 12
  /** `navigateTrivia` stops once this many titles have been counted. */
  const DailyCap: int := 10

  /**
   One pass of the question loop: the wait for a clickable Next button times
   out, or the question text and the displayed choice texts are read;
   `choiceOk` is whether clicking a chosen choice succeeds (line 72) and
   `nextOk` whether clicking Next after it does (line 73).
   */
  datatype Scan = TimedOut | Shown(question: string, choices: seq<string>, choiceOk: bool, nextOk: bool)

  /**
   How `solveQuestions` left a quiz: the reward claimed, an exception raised
   (which nothing catches), or still scanning when the observed passes ran out.
   A crash on the Next click keeps the choice clicked just before it.
   */
  datatype SolveEnd = Claimed | Crashed(clicked: Option<nat>) | Unfinished

  /** The choice clicked in each completed pass, in order, and how the quiz ended. */
  datatype Solve = Solve(picks: seq<Option<nat>>, ending: SolveEnd)

  /** The number of passes that clicked a choice, which is what `questionsSolved` counts. */
  function Solved(picks: seq<Option<nat>>): (n: nat)
    ensures n <= |picks|
  {
    if |picks| == 0 then 0 else (if picks[0].Some? then 1 else 0) + Solved(picks[1..])
  }

  /** The choice one pass clicks: the first displayed choice that is a possible answer of the question. */
  function PassPick(pairs: seq<Pair>, q: string, choices: seq<string>): (p: Option<nat>)
    ensures p.Some? ==> p.value < |choices| && (q, choices[p.value]) in pairs
    ensures p.Some? ==> forall j :: 0 <= j < p.value ==> (q, choices[j]) !in pairs
    ensures p.None? ==> forall j :: 0 <= j < |choices| ==> (q, choices[j]) !in pairs
  {
    var possible := AnswersFor(pairs, q);
    var p := Selection.FirstMatch(choices, possible);
    forall j | 0 <= j < |choices|
      ensures choices[j] in possible <==> (q, choices[j]) in pairs
    {
      AnswersForMembership(pairs, q, choices[j]);
    }
    p
  }

  /**
   Lines 49-92 from a point where `solved` questions are done: while fewer
   than twelve are solved, each pass clicks the first matching choice and
   counts one more solved question, or clicks nothing and counts nothing;
   after the twelfth the reward is claimed.
   */
  function SolveFrom(pairs: seq<Pair>, scans: seq<Scan>, solved: nat, claimOk: bool): (r: Solve)
    requires solved <= QuestionCount
    ensures |r.picks| <= |scans|
    ensures solved + Solved(r.picks) <= QuestionCount
    ensures r.ending.Claimed? <==> claimOk && solved + Solved(r.picks) == QuestionCount
    ensures r.ending.Unfinished? ==> |r.picks| == |scans| && solved + Solved(r.picks) < QuestionCount
    decreases |scans|
  {
    if solved == QuestionCount then Solve([], if claimOk then Claimed else Crashed(None))
    else if |scans| == 0 then Solve([], Unfinished)
    else match scans[0]
      case TimedOut => Solve([], Crashed(None))
      case Shown(q, choices, choiceOk, nextOk) =>
        var pick := PassPick(pairs, q, choices);
        if pick.Some? && !choiceOk then Solve([], Crashed(None))
        else if pick.Some? && !nextOk then Solve([], Crashed(pick))
        else
          var rest := SolveFrom(pairs, scans[1..], if pick.Some? then solved + 1 else solved, claimOk);
          Solve([pick] + rest.picks, rest.ending)
  }

  /** `solveQuestions`: the question loop starts with no question solved. */
  function SolveQuestions(pairs: seq<Pair>, scans: seq<Scan>, claimOk: bool): (r: Solve)
    ensures r.ending.Claimed? <==> claimOk && Solved(r.picks) == QuestionCount
    ensures r.ending.Claimed? ==> |r.picks| >= QuestionCount
  {
    SolveFrom(pairs, scans, 0, claimOk)
  }

  /** Each pass clicks what `PassPick` chooses for the scan it read. */
  lemma {:induction false} PicksFollowScans(pairs: seq<Pair>, scans: seq<Scan>, solved: nat, claimOk: bool, i: nat)
    requires solved <= QuestionCount
    requires i < |SolveFrom(pairs, scans, solved, claimOk).picks|
    ensures scans[i].Shown?
    ensures SolveFrom(pairs, scans, solved, claimOk).picks[i] == PassPick(pairs, scans[i].question, scans[i].choices)
    decreases |scans|
  {
    var pick := PassPick(pairs, scans[0].question, scans[0].choices);
    if i > 0 {
      PicksFollowScans(pairs, scans[1..], if pick.Some? then solved + 1 else solved, claimOk, i - 1);
    }
  }

  /**
   The pass after the completed ones is where a crash happened; a choice was
   clicked in it exactly when its pick is a possible answer whose click
   worked and the Next click after it raised.
   */
  lemma {:induction false} CrashKeepsChoice(pairs: seq<Pair>, scans: seq<Scan>, solved: nat, claimOk: bool)
    requires solved <= QuestionCount
    requires SolveFrom(pairs, scans, solved, claimOk).ending.Crashed?
    ensures var r := SolveFrom(pairs, scans, solved, claimOk); var n := |r.picks|;
      r.ending.clicked.Some? <==>
        n < |scans| && scans[n].Shown? && scans[n].choiceOk && !scans[n].nextOk
        && solved + Solved(r.picks) < QuestionCount
        && PassPick(pairs, scans[n].question, scans[n].choices).Some?
    ensures var r := SolveFrom(pairs, scans, solved, claimOk); var n := |r.picks|;
      r.ending.clicked.Some? ==> r.ending.clicked == PassPick(pairs, scans[n].question, scans[n].choices)
    decreases |scans|
  {
    var r := SolveFrom(pairs, scans, solved, claimOk);
    if solved < QuestionCount && |scans| > 0 && scans[0].Shown? {
      var pick := PassPick(pairs, scans[0].question, scans[0].choices);
      if !(pick.Some? && (!scans[0].choiceOk || !scans[0].nextOk)) {
        var solved' := if pick.Some? then solved + 1 else solved;
        CrashKeepsChoice(pairs, scans[1..], solved', claimOk);
        var rest := SolveFrom(pairs, scans[1..], solved', claimOk);
        assert r.picks == [pick] + rest.picks;
        assert Solved(r.picks) == (if pick.Some? then 1 else 0) + Solved(rest.picks) by {
          assert r.picks[1..] == rest.picks;
        }
        if |rest.picks| < |scans[1..]| {
          assert scans[1..][|rest.picks|] == scans[|r.picks|];
        }
      }
    }
  }

  /**
   A question the key cannot answer keeps the loop scanning: when every pass
   shows a question none of whose choices is a possible answer, nothing is
   clicked, nothing is counted, and the reward is never claimed.
   */
  lemma {:induction false} UnknownQuestionStalls(pairs: seq<Pair>, scans: seq<Scan>, solved: nat, claimOk: bool)
    requires solved < QuestionCount
    requires forall i :: 0 <= i < |scans| ==> scans[i].Shown?
    requires forall i, j :: 0 <= i < |scans| && scans[i].Shown? && 0 <= j < |scans[i].choices| ==>
      (scans[i].question, scans[i].choices[j]) !in pairs
    ensures SolveFrom(pairs, scans, solved, claimOk).ending == Unfinished
    ensures |SolveFrom(pairs, scans, solved, claimOk).picks| == |scans|
    ensures forall i :: 0 <= i < |scans| ==> SolveFrom(pairs, scans, solved, claimOk).picks[i] == None
    decreases |scans|
  {
    if |scans| > 0 {
      var rest := scans[1..];
      assert forall i :: 0 <= i < |rest| ==> rest[i] == scans[i + 1];
      UnknownQuestionStalls(pairs, rest, solved, claimOk);
      var pick := PassPick(pairs, scans[0].question, scans[0].choices);
      assert pick == None;
    }
  }

  /** What the site shows for a title. */
  datatype TriviaObs = Unreachable | AlreadyDone | Open(scans: seq<Scan>, claimOk: bool)

  /** What became of a visited title: its page failed to load, it was done for today, or its quiz was taken. */
  datatype VisitResult = LoadFailed | Completed | Taken(solve: Solve)

  /** A title, the URL it was opened at, and what became of it. */
  datatype LegacyVisit = LegacyVisit(title: string, url: string, result: VisitResult)

  /** Whether the loop goes on after a visit: the title was done already or its reward was claimed. */
  predicate Counted(v: LegacyVisit) {
    v.result.Completed? || (v.result.Taken? && v.result.solve.ending.Claimed?)
  }

  /**
   How `navigateTrivia` ended: the loop finished (the cap was reached or the
   titles ran out), an exception ended the program, or a quiz never finished.
   */
  datatype NavEnd = Finished | Aborted | Stuck

  /** The titles visited, in order, and how the loop ended. */
  datatype Navigation = Navigation(visits: seq<LegacyVisit>, ending: NavEnd)

  /**
   Lines 31-46 for one title: open its URL; a page that fails to load raises,
   a "come back tomorrow" heading marks it done for today, and otherwise its
   quiz is taken.
   */
  function VisitTitle(t: string, pairs: seq<Pair>, obs: TriviaObs): (v: LegacyVisit)
    ensures v.title == t && v.url == Slug.LegacyUrl(t)
    ensures v.result.LoadFailed? <==> obs.Unreachable?
    ensures v.result.Completed? <==> obs.AlreadyDone?
    ensures v.result.Taken? ==> v.result.solve == SolveQuestions(pairs, obs.scans, obs.claimOk)
  {
    var url := Slug.LegacyUrl(t);
    match obs
    case Unreachable => LegacyVisit(t, url, LoadFailed)
    case AlreadyDone => LegacyVisit(t, url, Completed)
    case Open(scans, claimOk) => LegacyVisit(t, url, Taken(SolveQuestions(pairs, scans, claimOk)))
  }

  /**
   `order` is an iteration order of the dictionary `questions`: every key
   exactly once.
   */
  predicate KeyOrder(order: seq<string>, questions: map<string, seq<Pair>>) {
    |order| == |questions|
    && (forall i :: 0 <= i < |order| ==> order[i] in questions)
    && (forall i, j :: 0 <= i < j < |order| ==> order[i] != order[j])
  }

  /** What visiting each title would give, whether or not the loop gets to it. */
  function VisitEach(order: seq<string>, questions: map<string, seq<Pair>>, observe: string -> TriviaObs): (vs: seq<LegacyVisit>)
    requires forall i :: 0 <= i < |order| ==> order[i] in questions
    ensures |vs| == |order|
  {
    if |order| == 0 then []
    else [VisitTitle(order[0], questions[order[0]], observe(order[0]))] + VisitEach(order[1..], questions, observe)
  }

  lemma {:induction false} VisitEachAt(order: seq<string>, questions: map<string, seq<Pair>>, observe: string -> TriviaObs, i: nat)
    requires forall j :: 0 <= j < |order| ==> order[j] in questions
    requires i < |order|
    ensures VisitEach(order, questions, observe)[i] == VisitTitle(order[i], questions[order[i]], observe(order[i]))
  {
    if i > 0 {
      VisitEachAt(order[1..], questions, observe, i - 1);
    }
  }

  /**
   How many titles the loop visits when `numSolved` are counted so far and
   visiting them gives `vs`: it stops once ten are counted, and after a visit
   that is not counted, which ends the program.
   */
  function Reach(vs: seq<LegacyVisit>, numSolved: int): (n: nat)
    ensures n <= |vs|
    ensures forall i :: 0 <= i < n - 1 ==> Counted(vs[i])
    ensures n < |vs| ==> numSolved + n >= DailyCap || (n > 0 && !Counted(vs[n - 1]))
    ensures numSolved < DailyCap ==> numSolved + n <= DailyCap
    ensures numSolved < DailyCap && |vs| > 0 ==> n > 0
    ensures numSolved >= DailyCap ==> n == 0
  {
    if |vs| == 0 || numSolved >= DailyCap then 0
    else if !Counted(vs[0]) then 1
    else
      var rest := vs[1..];
      assert forall i :: 0 <= i < |rest| ==> rest[i] == vs[i + 1];
      1 + Reach(rest, numSolved + 1)
  }

  /** How the loop ends after its last visit. */
  function EndAfter(visits: seq<LegacyVisit>): NavEnd {
    if |visits| == 0 || Counted(visits[|visits| - 1]) then Finished
    else if visits[|visits| - 1].result.Taken? && visits[|visits| - 1].result.solve.ending.Unfinished? then Stuck
    else Aborted
  }

  /**
   Lines 27-46 over the titles in dictionary order, `numSolved` counted so
   far: stop once ten are counted; otherwise visit the next title, and go on,
   counting it, if it was done for today or its reward was claimed.
   */
  function NavigateFrom(order: seq<string>, questions: map<string, seq<Pair>>, numSolved: int,
                        observe: string -> TriviaObs): (n: Navigation)
    requires KeyOrder(order, questions)
    ensures |n.visits| <= |order|
    ensures forall i :: 0 <= i < |n.visits| - 1 ==> Counted(n.visits[i])
    ensures n.ending.Finished? <==> |n.visits| == 0 || Counted(n.visits[|n.visits| - 1])
    ensures n.ending.Finished? ==> |n.visits| == |order| || numSolved + |n.visits| >= DailyCap
    ensures numSolved < DailyCap ==> numSolved + |n.visits| <= DailyCap
    ensures numSolved < DailyCap && |order| > 0 ==> |n.visits| > 0
    ensures n.ending.Stuck? <==> (|n.visits| > 0 && n.visits[|n.visits| - 1].result.Taken?
      && n.visits[|n.visits| - 1].result.solve.ending.Unfinished?)
  {
    var vs := VisitEach(order, questions, observe);
    var visits := vs[..Reach(vs, numSolved)];
    Navigation(visits, EndAfter(visits))
  }

  /** `navigateTrivia(driver, questions_map, 0)` as `main` calls it. */
  function NavigateTrivia(order: seq<string>, questions: map<string, seq<Pair>>, observe: string -> TriviaObs): (n: Navigation)
    requires KeyOrder(order, questions)
    ensures |n.visits| <= DailyCap
    ensures n.ending.Finished? ==> |n.visits| == if |questions| < DailyCap then |questions| else DailyCap
  {
    NavigateFrom(order, questions, 0, observe)
  }

  /** The visits follow the dictionary order, each title visited as `VisitTitle` says. */
  lemma VisitsFollowOrder(order: seq<string>, questions: map<string, seq<Pair>>, numSolved: int,
                          observe: string -> TriviaObs, i: nat)
    requires KeyOrder(order, questions)
    requires i < |NavigateFrom(order, questions, numSolved, observe).visits|
    ensures NavigateFrom(order, questions, numSolved, observe).visits[i]
         == VisitTitle(order[i], questions[order[i]], observe(order[i]))
  {
    VisitEachAt(order, questions, observe, i);
  }

  /** With every visit counted, the loop goes on until ten are counted or the visits run out. */
  lemma {:induction false} ReachAllCounted(vs: seq<LegacyVisit>, numSolved: int)
    requires forall i :: 0 <= i < |vs| ==> Counted(vs[i])
    ensures Reach(vs, numSolved) == if numSolved >= DailyCap then 0 else if |vs| < DailyCap - numSolved then |vs| else DailyCap - numSolved
  {
    if |vs| > 0 && numSolved < DailyCap {
      var rest := vs[1..];
      assert forall i :: 0 <= i < |rest| ==> rest[i] == vs[i + 1];
      ReachAllCounted(rest, numSolved + 1);
    }
  }

  /**
   Titles already done for today count towards the ten: when the site reports
   every title done, the loop visits titles until ten are counted or the titles
   run out, and takes no quiz.
   */
  lemma CompletedTitlesCount(order: seq<string>, questions: map<string, seq<Pair>>, numSolved: int,
                             observe: string -> TriviaObs)
    requires KeyOrder(order, questions)
    requires forall j :: 0 <= j < |order| ==> observe(order[j]).AlreadyDone?
    ensures NavigateFrom(order, questions, numSolved, observe).ending == Finished
    ensures |NavigateFrom(order, questions, numSolved, observe).visits|
         == if numSolved >= DailyCap then 0 else if |questions| < DailyCap - numSolved then |questions| else DailyCap - numSolved
  {
    var vs := VisitEach(order, questions, observe);
    forall i | 0 <= i < |vs|
      ensures Counted(vs[i])
    {
      VisitEachAt(order, questions, observe, i);
    }
    ReachAllCounted(vs, numSolved);
  }
}

=== FILE: optional.dfy ===
/** A value that may be absent: Python's `None` or a value. */
module Optional {

  datatype Option<+T> = None | Some(value: T)
}

=== FILE: quizrun.dfy ===
/**
 One run of the current bot (src/wiz.py, lines 71-303): ten titles drawn from
 the answer key are taken in turn; each is navigated to, skipped if the site
 says it was already played today, answered question by question, claimed,
 cleared of a reCAPTCHA if one appears, and its score read and logged. A
 failure in most phases closes the browser and ends the whole run. Five
 handlers carry on instead: the throttle probe (the quiz is then played), the
 reCAPTCHA probe (no challenge), the audio-button press (only a print), the
 PLAY press (the page is reloaded and the loop retries) and the presence probe
 after Verify (the challenge counts as solved).

 The browser is not modelled. What the site shows and whether each wait or
 click succeeds are observations, one `QuizObs` per title; the random draw
 is a parameter. So is `probeWorks`, which picks the reCAPTCHA loop:
 `false` is the loop as written, whose presence probe always raises, and
 `true` the loop with a probe that sees the challenge (see `Captcha`).
 */
module QuizRun {
  import opened Optional
  import opened Text
  import opened AnswerKey
  import Slug
  import Selection
  import Captcha

  /** Every quiz has twelve questions. */
  const QuestionCount: nat := 12
  /** The number of titles drawn for one run. */
  const SampleSize: nat := 10
  /** The one score that is not logged. */
  const PerfectScore: string := "100%"

  /**
   One question page as displayed: the question and choice texts before
   `strip()`, whether every wait and click of the answer scan succeeds
   (lines 128-137), whether the wait and click on the first choice when
   nothing matched succeed (lines 147-149), and whether the Next button
   becomes clickable. An unreadable page is one whose question never becomes
   visible.
   */
  datatype Page = Unreadable | Shown(question: string, choices: seq<string>, scanOk: bool, fallbackOk: bool, nextOk: bool)

  /** What the site does for one title, phase by phase. */
  datatype QuizObs = QuizObs(
    navOk: bool,                                  // the quiz URL loads
    throttled: bool,                              // the "come back tomorrow" box appears
    pages: seq<Page>,                             // the question pages, in order
    claimOk: bool,                                // the claim button appears and is clicked
    popupOk: bool,                                // the reward popup's submit button is clicked
    captcha: Option<seq<Captcha.Round>>,          // the reCAPTCHA rounds, if a challenge appears
    score: Option<string>,                        // the score text, if it appears
    results: Option<string>)                      // the answer sheet, if it appears

  /** The phase whose failure ended the run. */
  datatype Stage = Navigate | BuildKey | ReadQuestion | SelectAnswer | NextQuestion
                 | ClaimReward | RewardPopup | SolveCaptcha | LogResults

  /**
   How one title ended: skipped as already played, scored, failed in a phase
   (which ends the run), or stuck in the reCAPTCHA loop when the observed
   rounds ran out.
   */
  datatype Outcome = Skipped | Scored(score: string) | Failed(stage: Stage) | Hung

  /** The phases of the answer loop. */
  predicate AnswerStage(st: Stage) {
    st == ReadQuestion || st == SelectAnswer || st == NextQuestion
  }

  predicate EndsRun(o: Outcome) {
    o.Failed? || o.Hung?
  }

  function PageAt(pages: seq<Page>, i: nat): Page {
    if i < |pages| then pages[i] else Unreadable
  }

  function StripAll(texts: seq<string>): (r: seq<string>)
    ensures |r| == |texts|
    ensures forall i :: 0 <= i < |texts| ==> r[i] == Strip(texts[i])
  {
    seq(|texts|, i requires 0 <= i < |texts| => Strip(texts[i]))
  }

  /**
   One question: `clicks` are the choices clicked (indices in display order),
   `record` the new-question record appended, if any, and `failure` the phase
   that failed, if any.
   */
  datatype Step = Step(clicks: seq<nat>, record: Option<string>, failure: Option<Stage>)

  /**
   Whether the selection step of a question can click something: a choice is
   on display, and either one is accepted or the fallback click works.
   */
  predicate Selectable(texts: seq<string>, accepted: seq<string>, fallbackOk: bool) {
    |texts| > 0 && (fallbackOk || Selection.HasMatch(texts, accepted))
  }

  /**
   Lines 115-175 once the question text `q` and the choice texts are read and
   stripped: every accepted choice is clicked, or, when there is none, the
   question is recorded and the first choice clicked; then Next is pressed.
   The record is written before the fallback click, so it stays written when
   that click fails or there is no choice to click.
   */
  function AnswerShown(title: string, q: string, texts: seq<string>, accepted: seq<string>,
                       fallbackOk: bool, nextOk: bool): (s: Step)
    ensures s.record.Some? <==> |Selection.Matches(texts, accepted)| == 0
    ensures s.record.Some? ==> s.record.value == Selection.UnmatchedRecord(title, q, texts)
    ensures s.failure.None? <==> Selectable(texts, accepted, fallbackOk) && nextOk
    ensures s.failure.Some? ==> s.failure.value == (if Selectable(texts, accepted, fallbackOk) then NextQuestion else SelectAnswer)
    ensures s.record.None? ==> s.clicks == Selection.Matches(texts, accepted)
    ensures s.record.Some? ==> s.clicks == (if Selectable(texts, accepted, fallbackOk) then [0] else [])
  {
    var pick := Selection.SelectAll(title, q, texts, accepted);
    Selection.HasMatchIff(texts, accepted);
    if pick.failed || (pick.record.Some? && !fallbackOk) then Step([], pick.record, Some(SelectAnswer))
    else Step(pick.clicks, pick.record, if nextOk then None else Some(NextQuestion))
  }

  /**
   Lines 103-175 for one page: an unreadable question or a failing wait or
   click in the answer scan ends the run; otherwise the texts are stripped
   and the question answered from the key.
   */
  function AnswerPage(title: string, key: Key, page: Page): (s: Step)
    ensures s.failure.Some? ==> AnswerStage(s.failure.value)
    ensures page.Unreadable? ==> s == Step([], None, Some(ReadQuestion))
    ensures page.Shown? && !page.scanOk ==> s == Step([], None, Some(SelectAnswer))
    ensures page.Shown? && page.scanOk ==>
      (s.record.Some? <==> Selection.Matches(StripAll(page.choices), Lookup(key, Strip(page.question))) == [])
    ensures s.record.Some? ==> s.record.value == Selection.UnmatchedRecord(title, Strip(page.question), StripAll(page.choices))
    ensures s.failure.None? <==> Passes(key, page)
    ensures page.Shown? ==> forall k :: 0 <= k < |s.clicks| ==> s.clicks[k] < |page.choices|
  {
    match page
    case Unreadable => Step([], None, Some(ReadQuestion))
    case Shown(question, choices, scanOk, fallbackOk, nextOk) =>
      if !scanOk then Step([], None, Some(SelectAnswer))
      else
        var q := Strip(question);
        ShownClicksInRange(title, q, StripAll(choices), Lookup(key, q), fallbackOk, nextOk);
        AnswerShown(title, q, StripAll(choices), Lookup(key, q), fallbackOk, nextOk)
  }

  /** Every position one read question clicks is a displayed choice. */
  lemma ShownClicksInRange(title: string, q: string, texts: seq<string>, accepted: seq<string>, fallbackOk: bool, nextOk: bool)
    ensures var s := AnswerShown(title, q, texts, accepted, fallbackOk, nextOk);
      forall k :: 0 <= k < |s.clicks| ==> s.clicks[k] < |texts|
  {
  }

  /**
   A page the bot gets through: readable, its scan works, it has a choice to
   click (an accepted one, or the first one by a working fallback click), and
   its Next button works.
   */
  predicate Passes(key: Key, page: Page) {
    page.Shown? && page.scanOk && page.nextOk
    && Selectable(StripAll(page.choices), Lookup(key, Strip(page.question)), page.fallbackOk)
  }

  /**
   The answer loop from question `i` (counting from 0) to the last: the
   clicks made on each page, the records written, and the phase that failed.
   */
  datatype Answers = Answers(clicks: seq<seq<nat>>, records: seq<string>, failure: Option<Stage>)

  /**
   A page whose Next press fails has already had its choices clicked, so its
   clicks are reported with those of the pages before it; a page that fails
   earlier has clicked nothing.
   */
  function AnswerFrom(title: string, key: Key, pages: seq<Page>, i: nat): (a: Answers)
    requires i <= QuestionCount
    ensures a.failure.None? ==> |a.clicks| == QuestionCount - i
    ensures a.failure.Some? ==> |a.clicks| <= QuestionCount - i && AnswerStage(a.failure.value)
    ensures a.failure.Some? && a.failure.value != NextQuestion ==> |a.clicks| < QuestionCount - i
    ensures a.failure == Some(NextQuestion) ==> |a.clicks| > 0
    ensures |a.records| <= QuestionCount - i
    decreases QuestionCount - i
  {
    if i == QuestionCount then Answers([], [], None)
    else
      var s := AnswerPage(title, key, PageAt(pages, i));
      var rec := if s.record.Some? then [s.record.value] else [];
      if s.failure.Some? then Answers(if s.failure == Some(NextQuestion) then [s.clicks] else [], rec, s.failure)
      else
        var rest := AnswerFrom(title, key, pages, i + 1);
        Answers([s.clicks] + rest.clicks, rec + rest.records, rest.failure)
  }

  /** What answering each question page gives, in question order. */
  function Steps(title: string, key: Key, pages: seq<Page>): (v: seq<Step>)
    ensures |v| == QuestionCount
    ensures forall j :: 0 <= j < QuestionCount ==> v[j] == AnswerPage(title, key, PageAt(pages, j))
  {
    seq(QuestionCount, j requires 0 <= j < QuestionCount => AnswerPage(title, key, PageAt(pages, j)))
  }

  /** The record a step appends to the new-questions log, as a list of at most one. */
  function RecordOf(s: Step): (r: seq<string>)
    ensures s.record.None? <==> r == []
    ensures s.record.Some? ==> r == [s.record.value]
  {
    if s.record.Some? then [s.record.value] else []
  }

  /** The records of the `n` steps from step `i` on, in order. */
  function RecordsOf(steps: seq<Step>, i: nat, n: nat): (r: seq<string>)
    requires i + n <= |steps|
    ensures |r| <= n
    decreases n
  {
    if n == 0 then [] else RecordOf(steps[i]) + RecordsOf(steps, i + 1, n - 1)
  }

  /**
   How many pages the loop reached: the reported ones, and the failing page
   when it failed before clicking anything.
   */
  function PagesReached(a: Answers): nat {
    |a.clicks| + (if a.failure.Some? && a.failure.value != NextQuestion then 1 else 0)
  }

  /** The answer loop over given steps, from step `i` on. */
  function Gather(steps: seq<Step>, i: nat): Answers
    requires i <= |steps|
    decreases |steps| - i
  {
    if i == |steps| then Answers([], [], None)
    else
      var s := steps[i];
      if s.failure.Some? then Answers(if s.failure == Some(NextQuestion) then [s.clicks] else [], RecordOf(s), s.failure)
      else
        var rest := Gather(steps, i + 1);
        Answers([s.clicks] + rest.clicks, RecordOf(s) + rest.records, rest.failure)
  }

  lemma {:induction false} AnswerFromGathers(title: string, key: Key, pages: seq<Page>, i: nat)
    requires i <= QuestionCount
    ensures AnswerFrom(title, key, pages, i) == Gather(Steps(title, key, pages), i)
    decreases QuestionCount - i
  {
    if i < QuestionCount {
      AnswerFromGathers(title, key, pages, i + 1);
    }
  }

  /**
   Over given steps: every reported click list is its step's, in order, and
   the loop stops at the step that fails, which is the last one reported when
   its Next press failed and the one after the reported ones otherwise.
   */
  lemma {:induction false} GatherClicks(steps: seq<Step>, i: nat)
    requires i <= |steps|
    ensures var a := Gather(steps, i);
      i + |a.clicks| <= |steps| && forall k :: 0 <= k < |a.clicks| ==> a.clicks[k] == steps[i + k].clicks
    ensures var a := Gather(steps, i);
      a.failure == Some(NextQuestion) ==> |a.clicks| > 0 && steps[i + |a.clicks| - 1].failure == a.failure
    ensures var a := Gather(steps, i);
      a.failure.Some? && a.failure.value != NextQuestion ==> i + |a.clicks| < |steps| && steps[i + |a.clicks|].failure == a.failure
    decreases |steps| - i
  {
    if i < |steps| && steps[i].failure.None? {
      GatherClicks(steps, i + 1);
      var rest := Gather(steps, i + 1);
      var cs := Gather(steps, i).clicks;
      assert cs == [steps[i].clicks] + rest.clicks;
      forall k | 1 <= k < |cs|
        ensures cs[k] == steps[i + k].clicks
      {
        assert cs[k] == rest.clicks[k - 1];
      }
    }
  }

  /** Over given steps: the records are those of every step reached, in order, the failing one included. */
  lemma {:induction false} GatherRecords(steps: seq<Step>, i: nat)
    requires i <= |steps|
    ensures var a := Gather(steps, i);
      i + PagesReached(a) <= |steps| && a.records == RecordsOf(steps, i, PagesReached(a))
    decreases |steps| - i
  {
    if i < |steps| {
      var s := steps[i];
      if s.failure.Some? {
        assert RecordsOf(steps, i + 1, 0) == [];
      } else {
        GatherRecords(steps, i + 1);
        var rest := Gather(steps, i + 1);
        assert PagesReached(Gather(steps, i)) == 1 + PagesReached(rest);
      }
    }
  }

  /**
   The new-question log gets the records of the pages the loop reached, in
   question order, the failing page included: `RecordsOf` over `Steps`, each
   step being what `AnswerPage` gives for its page.
   */
  lemma AnswerFromRecords(title: string, key: Key, pages: seq<Page>, i: nat)
    requires i <= QuestionCount
    ensures var a := AnswerFrom(title, key, pages, i);
      i + PagesReached(a) <= QuestionCount && a.records == RecordsOf(Steps(title, key, pages), i, PagesReached(a))
  {
    AnswerFromGathers(title, key, pages, i);
    GatherRecords(Steps(title, key, pages), i);
  }

  /**
   Every reported click list is what its page clicked, in question order, so
   a loop that fails in Next reports the clicks made on the failing page; the
   loop stops at the page that fails.
   */
  lemma AnswerFromClicks(title: string, key: Key, pages: seq<Page>, i: nat)
    requires i <= QuestionCount
    ensures var a := AnswerFrom(title, key, pages, i);
      forall k :: 0 <= k < |a.clicks| ==> a.clicks[k] == AnswerPage(title, key, PageAt(pages, i + k)).clicks
    ensures var a := AnswerFrom(title, key, pages, i);
      a.failure == Some(NextQuestion) ==> AnswerPage(title, key, PageAt(pages, i + |a.clicks| - 1)).failure == a.failure
    ensures var a := AnswerFrom(title, key, pages, i);
      a.failure.Some? && a.failure.value != NextQuestion ==> AnswerPage(title, key, PageAt(pages, i + |a.clicks|)).failure == a.failure
  {
    AnswerFromGathers(title, key, pages, i);
    GatherClicks(Steps(title, key, pages), i);
  }

  /** Whether each question page passes, in question order. */
  function Verdicts(key: Key, pages: seq<Page>): (v: seq<bool>)
    ensures |v| == QuestionCount
    ensures forall j :: 0 <= j < QuestionCount ==> v[j] == Passes(key, PageAt(pages, j))
  {
    seq(QuestionCount, j requires 0 <= j < QuestionCount => Passes(key, PageAt(pages, j)))
  }

  /** Every verdict from `i` on holds. */
  predicate AllFrom(v: seq<bool>, i: nat)
    decreases |v| - i
  {
    i >= |v| || (v[i] && AllFrom(v, i + 1))
  }

  lemma {:induction false} AllFromEach(v: seq<bool>, i: nat)
    requires i <= |v|
    ensures AllFrom(v, i) <==> forall j :: i <= j < |v| ==> v[j]
    decreases |v| - i
  {
    if i < |v| {
      AllFromEach(v, i + 1);
    }
  }

  lemma {:induction false} AnswerFromPasses(title: string, key: Key, pages: seq<Page>, i: nat)
    requires i <= QuestionCount
    ensures AnswerFrom(title, key, pages, i).failure.None? <==> AllFrom(Verdicts(key, pages), i)
    decreases QuestionCount - i
  {
    if i < QuestionCount {
      AnswerFromPasses(title, key, pages, i + 1);
      var s := AnswerPage(title, key, PageAt(pages, i));
      assert s.failure.None? <==> Verdicts(key, pages)[i];
    }
  }

  /** The loop gets through all its questions exactly when every page from `i` on passes. */
  lemma AnswerFromCompletes(title: string, key: Key, pages: seq<Page>, i: nat)
    requires i <= QuestionCount
    ensures AnswerFrom(title, key, pages, i).failure.None? <==> forall j :: i <= j < QuestionCount ==> Passes(key, PageAt(pages, j))
  {
    AnswerFromPasses(title, key, pages, i);
    AllFromEach(Verdicts(key, pages), i);
  }

  /** The phases after the last question; `quizLog` lists the writes to the result log. */
  datatype Ending = Ending(outcome: Outcome, claimed: bool, quizLog: seq<string>)

  /** The first write to the result log for an imperfect score (line 291). */
  function ScoreHeader(title: string, score: string): (r: string)
    ensures |r| == |title| + |score| + 32
    ensures r[6..6 + |title|] == title
    ensures r[|r| - 2 - |score|..|r| - 2] == score
    ensures r[|r| - 2..] == "\n\n"
  {
    "Quiz '" + title + "' completed with score: " + score + "\n\n"
  }

  /**
   The phases before the score read all went through: the reward was claimed,
   the popup submitted, and the reCAPTCHA loop, if a challenge appeared, cleared.
   */
  predicate ReachesScore(obs: QuizObs, probeWorks: bool) {
    obs.claimOk && obs.popupOk && (obs.captcha.None? || Captcha.ClearWith(obs.captcha.value, probeWorks).Cleared?)
  }

  /**
   Lines 176-303: claim the reward, submit the popup, clear a reCAPTCHA if one
   appears (with the presence probe working or not, as `probeWorks` says),
   then read the score; an imperfect score is logged with its header and,
   once the answer sheet is shown, the sheet.
   */
  function Finish(title: string, obs: QuizObs, probeWorks: bool): (e: Ending)
    ensures e.claimed <==> obs.claimOk
    ensures !obs.claimOk ==> e.outcome == Failed(ClaimReward)
    ensures obs.claimOk && !obs.popupOk ==> e.outcome == Failed(RewardPopup)
    ensures e.outcome.Scored? <==>
      ReachesScore(obs, probeWorks) && obs.score.Some? && (Strip(obs.score.value) == PerfectScore || obs.results.Some?)
    ensures ReachesScore(obs, probeWorks) && obs.score.None? ==> e.outcome == Failed(LogResults) && e.quizLog == []
    ensures ReachesScore(obs, probeWorks) && obs.score.Some? ==> (e.quizLog != [] <==> Strip(obs.score.value) != PerfectScore)
    ensures |e.quizLog| == 2 ==> obs.results.Some? && e.quizLog[1] == obs.results.value + "\n\n"
    ensures e.outcome.Scored? ==> obs.score.Some? && e.outcome.score == Strip(obs.score.value)
    ensures e.outcome.Scored? ==> (e.quizLog == [] <==> e.outcome.score == PerfectScore)
    ensures e.quizLog != [] ==> obs.score.Some? && Strip(obs.score.value) != PerfectScore
    ensures e.quizLog != [] ==> e.quizLog[0] == ScoreHeader(title, Strip(obs.score.value))
    ensures |e.quizLog| == 1 ==> e.outcome == Failed(LogResults)
    ensures e.outcome.Hung? <==> obs.claimOk && obs.popupOk && obs.captcha.Some? && Captcha.ClearWith(obs.captcha.value, probeWorks).StillLooping?
    ensures e.outcome == Failed(SolveCaptcha) <==>
      obs.claimOk && obs.popupOk && obs.captcha.Some? && Captcha.ClearWith(obs.captcha.value, probeWorks).CaptchaAborted?
    ensures !e.outcome.Skipped?
    ensures e.outcome.Failed? ==> !AnswerStage(e.outcome.stage) && e.outcome.stage != Navigate && e.outcome.stage != BuildKey
  {
    if !obs.claimOk then Ending(Failed(ClaimReward), false, [])
    else if !obs.popupOk then Ending(Failed(RewardPopup), true, [])
    else if obs.captcha.Some? && Captcha.ClearWith(obs.captcha.value, probeWorks).CaptchaAborted? then Ending(Failed(SolveCaptcha), true, [])
    else if obs.captcha.Some? && Captcha.ClearWith(obs.captcha.value, probeWorks).StillLooping? then Ending(Hung, true, [])
    else if obs.score.None? then Ending(Failed(LogResults), true, [])
    else
      var score := Strip(obs.score.value);
      var header := ScoreHeader(title, score);
      if score == PerfectScore then Ending(Scored(score), true, [])
      else if obs.results.None? then Ending(Failed(LogResults), true, [header])
      else Ending(Scored(score), true, [header, obs.results.value + "\n\n"])
  }

  /**
   A reCAPTCHA challenge that survives a verified submission: the program as
   written goes on exactly as if no challenge had appeared, while with a
   working probe the quiz is still in the reCAPTCHA loop after that round.
   */
  lemma SurvivingChallengeIgnored(title: string, obs: QuizObs, r: Captcha.Round)
    requires obs.captcha == Some([r])
    requires Captcha.Submits(r) && r.stillShown && r.reloadOk
    ensures Finish(title, obs, false) == Finish(title, obs.(captcha := None), false)
    ensures obs.claimOk && obs.popupOk ==> Finish(title, obs, true).outcome == Hung
  {
    Captcha.ProbeMissesChallenge(r);
  }

  /**
   What one title leaves behind: how it ended, the choices
   clicked per answered question, the new-question records, whether the
   reward was claimed, and the text appended to the result log.
   */
  datatype QuizReport = QuizReport(outcome: Outcome, clicks: seq<seq<nat>>,
                                   records: seq<string>, claimed: bool, quizLog: seq<string>)

  /**
   Lines 78-303 for one title, once its page is open at its quiz URL, given
   its entries in the answer key.
   */
  function ProcessQuiz(title: string, entries: seq<seq<string>>, obs: QuizObs, probeWorks: bool): (r: QuizReport)
    ensures obs.navOk && !obs.throttled ==> (r.outcome == Failed(BuildKey) <==> ParsePairs(entries).None?)
    ensures obs.navOk && !obs.throttled && ParsePairs(entries).Some? ==>
      var a := AnswerFrom(title, Build(ParsePairs(entries).value), obs.pages, 0);
      r.clicks == a.clicks && r.records == a.records
      && (a.failure.Some? ==> r.outcome == Failed(a.failure.value) && !r.claimed && r.quizLog == [])
      && (a.failure.None? ==> r.outcome == Finish(title, obs, probeWorks).outcome
                              && r.claimed == obs.claimOk && r.quizLog == Finish(title, obs, probeWorks).quizLog)
    ensures r.outcome.Skipped? <==> obs.navOk && obs.throttled
    ensures r.outcome.Skipped? ==> r.clicks == [] && r.records == [] && !r.claimed && r.quizLog == []
    ensures r.outcome == Failed(Navigate) <==> !obs.navOk
    ensures r.claimed ==> |r.clicks| == QuestionCount
    ensures r.outcome.Scored? ==> r.claimed
    ensures r.quizLog != [] ==> r.claimed && obs.score.Some? && Strip(obs.score.value) != PerfectScore
    ensures r.outcome.Scored? ==> (r.quizLog == [] <==> r.outcome.score == PerfectScore)
  {
    if !obs.navOk then QuizReport(Failed(Navigate), [], [], false, [])
    else if obs.throttled then QuizReport(Skipped, [], [], false, [])
    else
      match ParsePairs(entries)
      case None => QuizReport(Failed(BuildKey), [], [], false, [])
      case Some(pairs) =>
        var answers := AnswerFrom(title, Build(pairs), obs.pages, 0);
        if answers.failure.Some? then
          QuizReport(Failed(answers.failure.value), answers.clicks, answers.records, false, [])
        else
          var e := Finish(title, obs, probeWorks);
          QuizReport(e.outcome, answers.clicks, answers.records, e.claimed, e.quizLog)
  }

  /**
   A quiz ends the run exactly when one of its phases fails: the page does not
   load; or, on a quiz not yet played today, an entry is malformed, some
   question page does not pass, the claim, popup or reCAPTCHA does not go
   through, the score cannot be read, or an imperfect score's answer sheet
   cannot be logged.
   */
  lemma ProcessQuizEndsRun(title: string, entries: seq<seq<string>>, obs: QuizObs, probeWorks: bool)
    ensures EndsRun(ProcessQuiz(title, entries, obs, probeWorks).outcome) <==>
      !obs.navOk
      || (!obs.throttled
          && (ParsePairs(entries).None?
              || !(forall j :: 0 <= j < QuestionCount ==> Passes(Build(ParsePairs(entries).value), PageAt(obs.pages, j)))
              || !ReachesScore(obs, probeWorks)
              || obs.score.None?
              || (Strip(obs.score.value) != PerfectScore && obs.results.None?)))
  {
    if obs.navOk && !obs.throttled && ParsePairs(entries).Some? {
      AnswerFromCompletes(title, Build(ParsePairs(entries).value), obs.pages, 0);
      FinishEndsRun(title, obs, probeWorks);
    }
  }

  /**
   After the last question, the quiz ends the run exactly when the claim,
   popup or reCAPTCHA does not go through, the score cannot be read, or an
   imperfect score's answer sheet cannot be logged.
   */
  lemma FinishEndsRun(title: string, obs: QuizObs, probeWorks: bool)
    ensures EndsRun(Finish(title, obs, probeWorks).outcome) <==>
      !ReachesScore(obs, probeWorks) || obs.score.None? || (Strip(obs.score.value) != PerfectScore && obs.results.None?)
  {
  }

  /** A title, the URL it was opened at (lines 74-78), and what its quiz left behind. */
  datatype Visit = Visit(title: string, url: string, report: QuizReport)

  /**
   How many of the titles, whose quizzes end as `outcomes` say, are visited:
   the loop goes on until the first quiz that fails or hangs, which is the
   last one visited.
   */
  function Reached(outcomes: seq<Outcome>): (n: nat)
    ensures n <= |outcomes|
    ensures |outcomes| > 0 ==> n > 0
    ensures forall i :: 0 <= i < n - 1 ==> !EndsRun(outcomes[i])
    ensures n < |outcomes| ==> EndsRun(outcomes[n - 1])
  {
    if |outcomes| == 0 then 0
    else if EndsRun(outcomes[0]) then 1
    else
      var rest := outcomes[1..];
      assert forall i :: 0 <= i < |rest| ==> rest[i] == outcomes[i + 1];
      1 + Reached(rest)
  }

  /** `random.sample(list(quizzes.keys()), 10)`: ten distinct titles of the key. */
  predicate IsSample(sample: seq<string>, titles: set<string>) {
    |sample| == SampleSize
    && (forall i :: 0 <= i < |sample| ==> sample[i] in titles)
    && (forall i, j :: 0 <= i < j < |sample| ==> sample[i] != sample[j])
  }

  /**
   The end of a run: the draw fails when the key holds fewer than ten titles
   (`random.sample` raises), otherwise the visits made and what they appended
   to the two log files.
   */
  datatype RunReport = SampleTooSmall | Ran(visits: seq<Visit>, questionLog: seq<string>, quizLog: seq<string>)

  /** The report of each drawn title's quiz, whether or not the run gets to it. */
  function Reports(titles: seq<string>, quizzes: map<string, seq<seq<string>>>, observe: string -> QuizObs, probeWorks: bool): (rs: seq<QuizReport>)
    requires forall i :: 0 <= i < |titles| ==> titles[i] in quizzes
    ensures |rs| == |titles|
  {
    if |titles| == 0 then []
    else [ProcessQuiz(titles[0], quizzes[titles[0]], observe(titles[0]), probeWorks)] + Reports(titles[1..], quizzes, observe, probeWorks)
  }

  lemma {:induction false} ReportsAt(titles: seq<string>, quizzes: map<string, seq<seq<string>>>, observe: string -> QuizObs, probeWorks: bool, i: nat)
    requires forall j :: 0 <= j < |titles| ==> titles[j] in quizzes
    requires i < |titles|
    ensures Reports(titles, quizzes, observe, probeWorks)[i] == ProcessQuiz(titles[i], quizzes[titles[i]], observe(titles[i]), probeWorks)
  {
    if i > 0 {
      ReportsAt(titles[1..], quizzes, observe, probeWorks, i - 1);
    }
  }

  function Outcomes(rs: seq<QuizReport>): (os: seq<Outcome>)
    ensures |os| == |rs|
    ensures forall i :: 0 <= i < |rs| ==> os[i] == rs[i].outcome
  {
    seq(|rs|, i requires 0 <= i < |rs| => rs[i].outcome)
  }

  function QuestionLog(vs: seq<Visit>): seq<string> {
    if |vs| == 0 then [] else vs[0].report.records + QuestionLog(vs[1..])
  }

  function QuizLog(vs: seq<Visit>): seq<string> {
    if |vs| == 0 then [] else vs[0].report.quizLog + QuizLog(vs[1..])
  }

  /**
   The visits of a run whose drawn titles' quizzes would end as `rs` says:
   the titles in drawn order, each at its URL with its report, up to and
   including the first that ends the run.
   */
  function Tour(titles: seq<string>, nonTrivia: set<string>, rs: seq<QuizReport>): (vs: seq<Visit>)
    requires |rs| == |titles|
    ensures |vs| <= |titles|
    ensures |titles| > 0 ==> |vs| > 0
    ensures forall i :: 0 <= i < |vs| ==> vs[i] == Visit(titles[i], Slug.QuizUrl(titles[i], nonTrivia), rs[i])
    ensures forall i :: 0 <= i < |vs| - 1 ==> !EndsRun(vs[i].report.outcome)
    ensures |vs| < |titles| ==> EndsRun(vs[|vs| - 1].report.outcome)
  {
    var n := Reached(Outcomes(rs));
    seq(n, i requires 0 <= i < n => Visit(titles[i], Slug.QuizUrl(titles[i], nonTrivia), rs[i]))
  }

  function Run(quizzes: map<string, seq<seq<string>>>, nonTrivia: set<string>, sample: seq<string>,
               observe: string -> QuizObs, probeWorks: bool): (r: RunReport)
    requires |quizzes| >= SampleSize ==> IsSample(sample, quizzes.Keys)
    ensures r.SampleTooSmall? <==> |quizzes| < SampleSize
    ensures r.Ran? ==> 0 < |r.visits| <= SampleSize
    ensures r.Ran? ==> forall i :: 0 <= i < |r.visits| ==> r.visits[i].title == sample[i]
    ensures r.Ran? ==> forall i, j :: 0 <= i < j < |r.visits| ==> r.visits[i].title != r.visits[j].title
    ensures r.Ran? ==> forall i :: 0 <= i < |r.visits| - 1 ==> !EndsRun(r.visits[i].report.outcome)
    ensures r.Ran? && |r.visits| < SampleSize ==> EndsRun(r.visits[|r.visits| - 1].report.outcome)
  {
    if |quizzes| < SampleSize then SampleTooSmall
    else
      var vs := Tour(sample, nonTrivia, Reports(sample, quizzes, observe, probeWorks));
      Ran(vs, QuestionLog(vs), QuizLog(vs))
  }

  /** Each visit is made at the title's URL, and its report is what the title's quiz does. */
  lemma RunVisitsQuizzes(quizzes: map<string, seq<seq<string>>>, nonTrivia: set<string>, sample: seq<string>,
                         observe: string -> QuizObs, probeWorks: bool)
    requires |quizzes| >= SampleSize && IsSample(sample, quizzes.Keys)
    ensures var r := Run(quizzes, nonTrivia, sample, observe, probeWorks);
      r.Ran? && forall i :: 0 <= i < |r.visits| ==>
        r.visits[i].url == Slug.QuizUrl(sample[i], nonTrivia)
        && r.visits[i].report == ProcessQuiz(sample[i], quizzes[sample[i]], observe(sample[i]), probeWorks)
  {
    var rs := Reports(sample, quizzes, observe, probeWorks);
    var vs := Tour(sample, nonTrivia, rs);
    assert Run(quizzes, nonTrivia, sample, observe, probeWorks) == Ran(vs, QuestionLog(vs), QuizLog(vs));
    forall i | 0 <= i < |vs|
      ensures vs[i].report == ProcessQuiz(sample[i], quizzes[sample[i]], observe(sample[i]), probeWorks)
    {
      ReportsAt(sample, quizzes, observe, probeWorks, i);
    }
  }
}

=== FILE: selection.dfy ===
/**
 Which displayed answer choices the bot clicks for one question. The current
 revision clicks every accepted choice and falls back to the first choice,
 logging the question, when none is accepted; the first revision clicks only
 the first accepted choice and clicks nothing when none is accepted.
 Page reads and clicks are abstracted: a question is its text and the texts of
 its displayed choices, and a selection is the list of clicked positions.
 */
module Selection {
  import opened Optional
  import opened Text
  import AnswerKey

  /** Positions of the displayed choices that are accepted answers, in display order. */
  function Matches(choices: seq<string>, accepted: seq<string>): (r: seq<nat>)
    ensures forall k :: 0 <= k < |r| ==> r[k] < |choices| && choices[r[k]] in accepted
    ensures forall k, l :: 0 <= k < l < |r| ==> r[k] < r[l]
    ensures forall i :: 0 <= i < |choices| && choices[i] in accepted ==> i in r
  {
    if |choices| == 0 then []
    else
      var n := |choices| - 1;
      Matches(choices[..n], accepted) + (if choices[n] in accepted then [n] else [])
  }

  /** Some displayed choice is accepted. */
  predicate HasMatch(choices: seq<string>, accepted: seq<string>) {
    |choices| > 0 && (choices[|choices| - 1] in accepted || HasMatch(choices[..|choices| - 1], accepted))
  }

  /** There is something to click exactly when some displayed choice is accepted. */
  lemma {:induction false} HasMatchIff(choices: seq<string>, accepted: seq<string>)
    ensures HasMatch(choices, accepted) <==> |Matches(choices, accepted)| > 0
  {
    if |choices| > 0 {
      HasMatchIff(choices[..|choices| - 1], accepted);
    }
  }

  /** The bullet lines of the unmatched-question record, one per displayed choice. */
  function Bullets(choices: seq<string>): seq<string> {
    seq(|choices|, i requires 0 <= i < |choices| => "- " + choices[i])
  }

  /**
   The record appended to the new-questions log when no displayed choice is
   accepted: the quiz title, the question, a heading, one bullet line per
   displayed choice, and a blank line.
   */
  function UnmatchedRecord(title: string, question: string, choices: seq<string>): (r: string)
    ensures var head := ("Quiz Title: " + title) + "\n" + ("Question: " + question) + "\n" + "Answer choices:" + "\n";
      |r| >= |head| + |choices| + 1 && r[..|head|] == head
    ensures |r| >= 2 && r[|r| - 2..] == "\n\n"
  {
    var top := ["Quiz Title: " + title, "Question: " + question, "Answer choices:"];
    RecordFrame(top, Bullets(choices));
    ThreeLines(top[0], top[1], top[2]);
    Lines(top + Bullets(choices) + [""])
  }

  /** Three lines written out: each followed by a newline. */
  lemma ThreeLines(a: string, b: string, c: string)
    ensures Lines([a, b, c]) == a + "\n" + b + "\n" + c + "\n"
  {
    assert [c][1..] == [];
    assert Lines([c]) == c + "\n";
    assert [b, c][1..] == [c];
    assert Lines([b, c]) == b + "\n" + (c + "\n");
    assert [a, b, c][1..] == [b, c];
  }

  /** Heading lines, the body lines, then a blank line: the text starts with the headings and ends in two newlines. */
  lemma RecordFrame(top: seq<string>, mid: seq<string>)
    requires |top| > 0
    ensures |Lines(top + mid + [""])| >= |Lines(top)| + |mid| + 1
    ensures Lines(top + mid + [""])[..|Lines(top)|] == Lines(top)
    ensures var r := Lines(top + mid + [""]); |r| >= 2 && r[|r| - 2..] == "\n\n"
  {
    LinesAppend(top + mid, [""]);
    LinesAppend(top, mid);
    assert [""][1..] == [];
    assert Lines([""]) == "\n";
    var h, m := Lines(top), Lines(mid);
    assert Lines(top + mid + [""]) == h + (m + "\n");
    LinesShape(top);
    LinesShape(mid);
    TwoNewlines(h + m);
  }

  /** A text that ends in a newline, followed by one more, ends in two. */
  lemma TwoNewlines(lb: string)
    requires |lb| > 0 && lb[|lb| - 1] == '\n'
    ensures var r := lb + "\n"; r[|r| - 2..] == "\n\n"
  {
    var r := lb + "\n";
    assert r[|r| - 2..] == [lb[|lb| - 1], '\n'];
  }

  /**
   Read back line by line, the record gives the title, the question, the
   heading, every choice in display order, and the blank line (the last piece
   is what follows the final newline).
   */
  lemma RecordReadsBack(title: string, question: string, choices: seq<string>)
    requires '\n' !in title && '\n' !in question
    requires forall i :: 0 <= i < |choices| ==> '\n' !in choices[i]
    ensures Split(UnmatchedRecord(title, question, choices), '\n')
         == ["Quiz Title: " + title, "Question: " + question, "Answer choices:"] + Bullets(choices) + ["", ""]
  {
    var ls := ["Quiz Title: " + title, "Question: " + question, "Answer choices:"] + Bullets(choices) + [""];
    forall k | 0 <= k < |ls|
      ensures '\n' !in ls[k]
    {
      if 3 <= k < 3 + |choices| {
        assert ls[k] == "- " + choices[k - 3];
      }
    }
    SplitLines(ls, "");
    assert UnmatchedRecord(title, question, choices) + "" == UnmatchedRecord(title, question, choices);
  }

  /**
   The outcome of answering one question: the clicked positions in click
   order, the record appended to the new-questions log if any, and whether
   the step raised.
   */
  datatype Pick = Pick(clicks: seq<nat>, record: Option<string>, failed: bool)

  /**
   The current revision: click every displayed choice that is an accepted
   answer, in display order (the matches, as `Matches` characterises them).
   If there is none, append the record and click the
   first choice; with no displayed choice at all the record is still written
   and then reading the first choice raises.
   */
  function SelectAll(title: string, question: string, choices: seq<string>, accepted: seq<string>): (r: Pick)
    ensures r.record.None? ==> r.clicks == Matches(choices, accepted) && |r.clicks| > 0
    ensures r.record.Some? ==> forall i :: 0 <= i < |choices| ==> choices[i] !in accepted
    ensures r.record.Some? ==> r.record.value == UnmatchedRecord(title, question, choices)
    ensures r.failed <==> |choices| == 0
    ensures r.record.Some? && !r.failed ==> r.clicks == [0]
    ensures r.failed ==> r.clicks == []
  {
    if |choices| == 0 then Pick([], Some(UnmatchedRecord(title, question, choices)), true)
    else
      var m := Matches(choices, accepted);
      if |m| > 0 then Pick(m, None, false)
      else
        MatchesEmpty(choices, accepted);
        Pick([0], Some(UnmatchedRecord(title, question, choices)), false)
  }

  /** No match means no accepted choice on display. */
  lemma {:induction false} MatchesEmpty(choices: seq<string>, accepted: seq<string>)
    requires Matches(choices, accepted) == []
    ensures forall i :: 0 <= i < |choices| ==> choices[i] !in accepted
  {
    if |choices| > 0 {
      MatchesEmpty(choices[..|choices| - 1], accepted);
    }
  }

  /** The first displayed choice that is a possible answer, if any. */
  function FirstMatch(choices: seq<string>, possible: seq<string>): (r: Option<nat>)
    ensures r.Some? ==> r.value < |choices| && choices[r.value] in possible
    ensures r.Some? ==> forall j :: 0 <= j < r.value ==> choices[j] !in possible
    ensures r.None? ==> forall j :: 0 <= j < |choices| ==> choices[j] !in possible
  {
    if |choices| == 0 then None
    else if choices[0] in possible then Some(0)
    else match FirstMatch(choices[1..], possible)
      case None => None
      case Some(i) => Some(i + 1)
  }

  /** `s` written out `n` times. */
  function Repeat(s: seq<string>, n: nat): seq<string> {
    if n == 0 then [] else Repeat(s, n - 1) + s
  }

  /**
   The first revision's scan: for each possible answer, walk the displayed
   choices, collecting their texts, and click the first one that is any
   possible answer, then stop both loops. Without possible answers nothing is
   collected; without a match every pass collects all the choices again.
   */
  method ScanFirst(choices: seq<string>, possible: seq<string>) returns (clicked: Option<nat>, collected: seq<string>)
    ensures clicked == FirstMatch(choices, possible)
    ensures clicked.Some? ==> collected == choices[..clicked.value + 1]
    ensures clicked.None? ==> collected == Repeat(choices, |possible|)
  {
    clicked := None;
    collected := [];
    var a := 0;
    while a < |possible|
      invariant 0 <= a <= |possible|
      invariant collected == Repeat(choices, a)
      invariant a > 0 ==> forall j :: 0 <= j < |choices| ==> choices[j] !in possible
    {
      var d := 0;
      while d < |choices|
        invariant 0 <= d <= |choices|
        invariant collected == Repeat(choices, a) + choices[..d]
        invariant forall j :: 0 <= j < d ==> choices[j] !in possible
      {
        collected := collected + [choices[d]];
        if choices[d] in possible {
          clicked := Some(d);
          assert a == 0;
          assert choices[..d] + [choices[d]] == choices[..d + 1];
          return;
        }
        d := d + 1;
      }
      assert choices[..d] == choices;
      a := a + 1;
    }
  }

  /**
   The two policies agree on where they start: the first revision clicks a
   choice exactly when the current one finds a match, and it clicks the first
   of the current revision's clicks.
   */
  lemma FirstMatchHeadsMatches(choices: seq<string>, accepted: seq<string>)
    ensures FirstMatch(choices, accepted).Some? <==> |Matches(choices, accepted)| > 0
    ensures FirstMatch(choices, accepted).Some? ==> Matches(choices, accepted)[0] == FirstMatch(choices, accepted).value
  {
    var f := FirstMatch(choices, accepted);
    var m := Matches(choices, accepted);
    if f.Some? {
      assert f.value in m;
      assert m[0] <= f.value;
    }
  }

  /** With no accepted choice on display there is no match. */
  lemma {:induction false} MatchesNone(choices: seq<string>, accepted: seq<string>)
    requires forall j :: 0 <= j < |choices| ==> choices[j] !in accepted
    ensures Matches(choices, accepted) == []
  {
    if |choices| > 0 {
      MatchesNone(choices[..|choices| - 1], accepted);
    }
  }

  /** With exactly one accepted choice on display, that choice is the only match. */
  lemma {:induction false} MatchesSingle(choices: seq<string>, accepted: seq<string>, i: nat)
    requires i < |choices| && choices[i] in accepted
    requires forall j :: 0 <= j < |choices| && j != i ==> choices[j] !in accepted
    ensures Matches(choices, accepted) == [i]
  {
    var n := |choices| - 1;
    if n == i {
      MatchesNone(choices[..n], accepted);
    } else {
      MatchesSingle(choices[..n], accepted, i);
    }
  }

  /** With exactly one accepted choice on display both revisions click that choice and nothing else. */
  lemma PoliciesAgreeOnSingleMatch(title: string, question: string, choices: seq<string>, accepted: seq<string>, i: nat)
    requires i < |choices| && choices[i] in accepted
    requires forall j :: 0 <= j < |choices| && j != i ==> choices[j] !in accepted
    ensures SelectAll(title, question, choices, accepted).clicks == [i]
    ensures FirstMatch(choices, accepted) == Some(i)
  {
    MatchesSingle(choices, accepted, i);
  }

  /**
   With no accepted choice on display they part: the current revision clicks
   the first choice and logs the question, the first revision clicks nothing.
   */
  lemma PoliciesDifferOnNoMatch(title: string, question: string, choices: seq<string>, accepted: seq<string>)
    requires |choices| > 0
    requires forall j :: 0 <= j < |choices| ==> choices[j] !in accepted
    ensures SelectAll(title, question, choices, accepted) == Pick([0], Some(UnmatchedRecord(title, question, choices)), false)
    ensures FirstMatch(choices, accepted) == None
  {
    MatchesNone(choices, accepted);
  }

  /** A question with an accepted choice on display: exactly the matches are clicked, nothing is logged. */
  lemma SelectAllOnMatch(title: string, question: string, choices: seq<string>, accepted: seq<string>)
    requires |Matches(choices, accepted)| > 0
    ensures SelectAll(title, question, choices, accepted) == Pick(Matches(choices, accepted), None, false)
  {
  }

  /**
   A question whose two displayed choices are both unknown to the key: the
   first choice is clicked, and one record is logged that reads back as the
   title, the question and both choices.
   */
  lemma NoMatchTwoChoices(title: string, question: string, a: string, b: string, accepted: seq<string>)
    requires a !in accepted && b !in accepted
    requires '\n' !in title && '\n' !in question && '\n' !in a && '\n' !in b
    ensures SelectAll(title, question, [a, b], accepted) == Pick([0], Some(UnmatchedRecord(title, question, [a, b])), false)
    ensures Split(UnmatchedRecord(title, question, [a, b]), '\n')
         == ["Quiz Title: " + title, "Question: " + question, "Answer choices:", "- " + a, "- " + b, "", ""]
  {
    var choices := [a, b];
    PoliciesDifferOnNoMatch(title, question, choices, accepted);
    RecordReadsBack(title, question, choices);
    var bs := Bullets(choices);
    assert bs == ["- " + a, "- " + b];
  }
}

=== FILE: slug.dfy ===
/**
 The URL of a quiz, derived from its title as written in the answer key.
 The current revision (src/wiz.py) and the first revision (wiz.py) derive it
 differently; both are here, with what they agree and disagree on.
 */
module Slug {
  import opened Text

  const QuizBase: string := "https://www.wizard101.com/quiz/trivia/game/"
  const TriviaSuffix: string := "-trivia"

  lemma BaseHasNoSpace()
    ensures ' ' !in QuizBase
  {
    assert forall i :: 0 <= i < |QuizBase| ==> QuizBase[i] != ' ';
  }

  /**
   The current revision: `"-".join(title.strip().lower().split(" "))`, then the
   suffix unless the title (unstripped) is one of the non-trivia titles. Every
   space of the stripped, lower-cased title becomes a hyphen, so a run of
   spaces becomes a run of hyphens.
   */
  function TriviaSlug(title: string, nonTrivia: set<string>): (r: string)
    ensures r == ReplaceChar(Lower(Strip(title)), ' ', '-') + (if title in nonTrivia then "" else TriviaSuffix)
    ensures ' ' !in r
    ensures |r| == |Strip(title)| + (if title in nonTrivia then 0 else |TriviaSuffix|)
  {
    var stem := Lower(Strip(title));
    JoinSplitReplace(stem, ' ', '-');
    Join("-", Split(stem, ' ')) + (if title in nonTrivia then "" else TriviaSuffix)
  }

  /**
   The quiz page: the trivia base followed by the slug, free of spaces, with
   the suffix at the end of every trivia title's URL.
   */
  function QuizUrl(title: string, nonTrivia: set<string>): (r: string)
    ensures |r| == |QuizBase| + |Strip(title)| + (if title in nonTrivia then 0 else |TriviaSuffix|)
    ensures r[..|QuizBase|] == QuizBase
    ensures r[|QuizBase|..] == TriviaSlug(title, nonTrivia)
    ensures ' ' !in r
    ensures title !in nonTrivia ==> r[|r| - |TriviaSuffix|..] == TriviaSuffix
  {
    BaseHasNoSpace();
    QuizBase + TriviaSlug(title, nonTrivia)
  }

  /**
   The first revision: `title.lower().replace(' ', '-')` followed by the suffix,
   always; no stripping and no non-trivia exception.
   */
  function LegacySlug(title: string): (r: string)
    ensures r == ReplaceChar(Lower(title), ' ', '-') + TriviaSuffix
    ensures ' ' !in r
    ensures |r| == |title| + |TriviaSuffix|
    ensures r[|title|..] == TriviaSuffix
  {
    ReplaceChar(Lower(title), ' ', '-') + TriviaSuffix
  }

  /** The first revision's quiz page: the trivia base, the slug, always the suffix. */
  function LegacyUrl(title: string): (r: string)
    ensures |r| == |QuizBase| + |title| + |TriviaSuffix|
    ensures r[..|QuizBase|] == QuizBase
    ensures r[|QuizBase|..] == LegacySlug(title)
    ensures ' ' !in r
    ensures r[|r| - |TriviaSuffix|..] == TriviaSuffix
  {
    BaseHasNoSpace();
    QuizBase + LegacySlug(title)
  }

  /**
   The non-trivia titles read from the title list: each line stripped, blank
   lines dropped. No member is empty or has whitespace at either end.
   */
  function NonTriviaTitles(lines: seq<string>): (r: set<string>)
    ensures forall t :: t in r ==> |t| > 0 && !IsSpace(t[0]) && !IsSpace(t[|t| - 1])
    ensures forall i :: 0 <= i < |lines| && |Strip(lines[i])| > 0 ==> Strip(lines[i]) in r
    ensures forall t :: t in r ==> exists i :: 0 <= i < |lines| && Strip(lines[i]) == t
  {
    set i | 0 <= i < |lines| && |Strip(lines[i])| > 0 :: Strip(lines[i])
  }

  /**
   The title is compared with the list before it is stripped, so a title written
   with surrounding whitespace is never a non-trivia title and always gets the suffix.
   */
  lemma PaddedTitleKeepsSuffix(title: string, lines: seq<string>)
    requires |title| > 0 && (IsSpace(title[0]) || IsSpace(title[|title| - 1]))
    ensures title !in NonTriviaTitles(lines)
    ensures TriviaSlug(title, NonTriviaTitles(lines)) == ReplaceChar(Lower(Strip(title)), ' ', '-') + TriviaSuffix
  {
  }

  /** For a trivia title without surrounding whitespace the two revisions derive the same slug. */
  lemma RevisionsAgree(title: string, nonTrivia: set<string>)
    requires |title| > 0 ==> !IsSpace(title[0]) && !IsSpace(title[|title| - 1])
    requires title !in nonTrivia
    ensures TriviaSlug(title, nonTrivia) == LegacySlug(title)
  {
    StripUnpadded(title);
  }

  /** They disagree on every title with surrounding whitespace, and on every non-trivia title. */
  lemma RevisionsDisagree(title: string, nonTrivia: set<string>)
    requires (|title| > 0 && IsSpace(title[0])) || title in nonTrivia
    ensures TriviaSlug(title, nonTrivia) != LegacySlug(title)
  {
    if title !in nonTrivia {
      assert |StripStart(title)| < |title|;
    }
  }

  /**
   Two spaces between words give two hyphens between their lower-cased forms:
   "Fire  Ice" becomes "fire--ice-trivia".
   */
  lemma DoubleSpaceDoubleHyphen(a: string, b: string, nonTrivia: set<string>)
    requires |a| > 0 && !IsSpace(a[0]) && |b| > 0 && !IsSpace(b[|b| - 1])
    requires a + "  " + b !in nonTrivia
    ensures TriviaSlug(a + "  " + b, nonTrivia)
         == ReplaceChar(Lower(a), ' ', '-') + "--" + ReplaceChar(Lower(b), ' ', '-') + TriviaSuffix
  {
    var t := a + "  " + b;
    StripUnpadded(t);
    assert Lower(t) == Lower(a) + "  " + Lower(b);
    assert ReplaceChar(Lower(t), ' ', '-') == ReplaceChar(Lower(a), ' ', '-') + "--" + ReplaceChar(Lower(b), ' ', '-');
  }
}

=== FILE: text.dfy ===
/**
 The Python `str` operations the bot relies on, over ASCII text:
 `strip()`, `lower()`, `split(sep)` with an explicit one-character separator,
 `sep.join(parts)` and `replace(a, b)` for single characters.
 */
module Text {

  /** Python's `str.isspace` on ASCII: space, `\t` .. `\r`, and the separators 0x1C .. 0x1F. */
  predicate IsSpace(c: char) {
    c == ' ' || ('\t' <= c <= '\r') || ('\U{1C}' <= c <= '\U{1F}')
  }

  predicate AllSpace(s: string) {
    forall i :: 0 <= i < |s| ==> IsSpace(s[i])
  }

  predicate IsUpper(c: char) {
    'A' <= c <= 'Z'
  }

  /** ASCII `str.lower` on one character. */
  function LowerChar(c: char): char {
    if IsUpper(c) then (c as int + 32) as char else c
  }

  /** ASCII `str.lower`. */
  function Lower(s: string): string {
    seq(|s|, i requires 0 <= i < |s| => LowerChar(s[i]))
  }

  /** `str.replace(a, b)` for single characters. */
  function ReplaceChar(s: string, a: char, b: char): string {
    seq(|s|, i requires 0 <= i < |s| => if s[i] == a then b else s[i])
  }

  /** `str.lstrip()`: drop whitespace from the front. */
  function StripStart(s: string): (r: string)
    ensures |r| <= |s|
    ensures |r| > 0 ==> !IsSpace(r[0])
  {
    if |s| > 0 && IsSpace(s[0]) then StripStart(s[1..]) else s
  }

  /** `str.rstrip()`: drop whitespace from the back. */
  function StripEnd(s: string): (r: string)
    ensures |r| <= |s|
    ensures |r| > 0 ==> !IsSpace(r[|r| - 1])
  {
    if |s| > 0 && IsSpace(s[|s| - 1]) then StripEnd(s[..|s| - 1]) else s
  }

  /** `str.strip()`: the text without its leading and trailing whitespace. */
  function Strip(s: string): (r: string)
    ensures |r| <= |s|
    ensures |r| > 0 ==> !IsSpace(r[0]) && !IsSpace(r[|r| - 1])
  {
    var t := StripStart(s);
    var r := StripEnd(t);
    StripEndKeepsFront(t);
    r
  }

  /** What `lstrip` drops is whitespace, and what it keeps is the rest of the text. */
  lemma {:induction false} StripStartSuffix(s: string)
    ensures StripStart(s) == s[|s| - |StripStart(s)|..]
    ensures AllSpace(s[..|s| - |StripStart(s)|])
  {
    if |s| > 0 && IsSpace(s[0]) {
      StripStartSuffix(s[1..]);
      var r := StripStart(s);
      assert s[1..][|s| - 1 - |r|..] == s[|s| - |r|..];
      assert s[..|s| - |r|] == [s[0]] + s[1..][..|s| - 1 - |r|];
    }
  }

  /** What `rstrip` drops is whitespace, and what it keeps is the front of the text. */
  lemma {:induction false} StripEndPrefix(s: string)
    ensures StripEnd(s) == s[..|StripEnd(s)|]
    ensures AllSpace(s[|StripEnd(s)|..])
  {
    if |s| > 0 && IsSpace(s[|s| - 1]) {
      var init := s[..|s| - 1];
      StripEndPrefix(init);
      var r := StripEnd(s);
      assert init[..|r|] == s[..|r|];
      assert s[|r|..] == init[|r|..] + [s[|s| - 1]];
    }
  }

  /** `rstrip` keeps the first character when that is not whitespace. */
  lemma StripEndKeepsFront(t: string)
    requires |t| > 0 ==> !IsSpace(t[0])
    ensures |StripEnd(t)| > 0 ==> !IsSpace(StripEnd(t)[0])
  {
    StripEndPrefix(t);
  }

  /**
   The stripped text is the infix of `s` that follows `lead` whitespace
   characters and is followed only by whitespace.
   */
  lemma StripInfix(s: string) returns (lead: nat)
    ensures lead + |Strip(s)| <= |s|
    ensures Strip(s) == s[lead..lead + |Strip(s)|]
    ensures AllSpace(s[..lead]) && AllSpace(s[lead + |Strip(s)|..])
  {
    var t := StripStart(s);
    StripStartSuffix(s);
    StripEndPrefix(t);
    lead := |s| - |t|;
    SuffixSlices(s, lead, |Strip(s)|);
  }

  lemma SuffixSlices(s: string, lead: nat, k: nat)
    requires lead + k <= |s|
    ensures s[lead..][..k] == s[lead..lead + k]
    ensures s[lead..][k..] == s[lead + k..]
  {
  }

  /** Stripping a text that has no surrounding whitespace changes nothing. */
  lemma StripUnpadded(s: string)
    requires |s| > 0 ==> !IsSpace(s[0]) && !IsSpace(s[|s| - 1])
    ensures Strip(s) == s
  {
  }

  /**
   `s.split(sep)` with an explicit separator: runs of separators yield empty
   pieces, and there is always at least one piece.
   */
  function Split(s: string, sep: char): (r: seq<string>)
    ensures |r| >= 1
    ensures forall k :: 0 <= k < |r| ==> sep !in r[k]
  {
    if |s| == 0 then [""]
    else
      var rest := Split(s[1..], sep);
      if s[0] == sep then [""] + rest
      else [[s[0]] + rest[0]] + rest[1..]
  }

  /** `sep.join(parts)`. */
  function Join(sep: string, parts: seq<string>): string {
    if |parts| == 0 then ""
    else if |parts| == 1 then parts[0]
    else parts[0] + sep + Join(sep, parts[1..])
  }

  lemma JoinGrowHead(sep: string, parts: seq<string>, c: char)
    requires |parts| >= 1
    ensures Join(sep, [[c] + parts[0]] + parts[1..]) == [c] + Join(sep, parts)
  {
    var ps := [[c] + parts[0]] + parts[1..];
    assert ps[1..] == parts[1..];
  }

  /**
   Splitting on one character and joining with another replaces every
   occurrence of the first by the second.
   */
  lemma {:induction false} JoinSplitReplace(s: string, sep: char, rep: char)
    ensures Join([rep], Split(s, sep)) == ReplaceChar(s, sep, rep)
  {
    if |s| > 0 {
      var rest := Split(s[1..], sep);
      JoinSplitReplace(s[1..], sep, rep);
      assert ReplaceChar(s, sep, rep) == [if s[0] == sep then rep else s[0]] + ReplaceChar(s[1..], sep, rep);
      if s[0] == sep {
        assert ([""] + rest)[1..] == rest;
      } else {
        JoinGrowHead([rep], rest, s[0]);
      }
    }
  }

  /** A separator-free prefix followed by a separator is split off as the first piece. */
  lemma {:induction false} SplitPrefix(a: string, b: string, sep: char)
    requires sep !in a
    ensures Split(a + [sep] + b, sep) == [a] + Split(b, sep)
    decreases |a|
  {
    var s := a + [sep] + b;
    if |a| == 0 {
      assert s[1..] == b;
    } else {
      assert s[1..] == a[1..] + [sep] + b;
      SplitPrefix(a[1..], b, sep);
      assert [a[0]] + a[1..] == a;
    }
  }

  /** Text written line by line: every line followed by a newline. */
  function Lines(ls: seq<string>): string {
    if |ls| == 0 then "" else ls[0] + "\n" + Lines(ls[1..])
  }

  /** Text written line by line ends in a newline and has at least one character per line. */
  lemma {:induction false} LinesShape(ls: seq<string>)
    ensures |ls| > 0 ==> |Lines(ls)| > 0 && Lines(ls)[|Lines(ls)| - 1] == '\n'
    ensures |Lines(ls)| >= |ls|
  {
    if |ls| > 0 {
      LinesShape(ls[1..]);
    }
  }

  /** Lines written one after the other give the text of the two lists, one after the other. */
  lemma {:induction false} LinesAppend(a: seq<string>, b: seq<string>)
    ensures Lines(a + b) == Lines(a) + Lines(b)
  {
    if |a| == 0 {
      assert a + b == b;
    } else {
      assert (a + b)[1..] == a[1..] + b;
      LinesAppend(a[1..], b);
    }
  }

  /** Reading back text written line by line gives the lines, then whatever followed. */
  lemma {:induction false} SplitLines(ls: seq<string>, tail: string)
    requires forall k :: 0 <= k < |ls| ==> '\n' !in ls[k]
    ensures Split(Lines(ls) + tail, '\n') == ls + Split(tail, '\n')
  {
    if |ls| > 0 {
      var more := ls[1..];
      assert forall k :: 0 <= k < |more| ==> more[k] == ls[k + 1];
      var rest := Lines(more) + tail;
      SplitLines(more, tail);
      SplitPrefix(ls[0], rest, '\n');
      assert Lines(ls) + tail == ls[0] + ['\n'] + rest;
      assert Split(Lines(ls) + tail, '\n') == [ls[0]] + (more + Split(tail, '\n'));
      assert [ls[0]] + more == ls;
    } else {
      assert Lines(ls) + tail == tail;
    }
  }
}

=== FILE: transcribe.dfy ===
/**
 The text side of `transcribe_audio`: the transcript is the speech model's
 segment texts joined by single spaces, stripped, lower-cased, and cleared of
 ASCII punctuation. Both revisions of the function share this pipeline. The
 HTTP download and the speech model are not modelled: the response status and
 the segment texts they produce are parameters.
 */
module Transcribe {
  import opened Optional
  import opened Text

  /** Python's `string.punctuation`: the 32 ASCII punctuation characters. */
  const Punctuation: string := "!\"#$%&'()*+,-./:;<=>?@[\\]^_`{|}~"

  /** The only response status for which a transcript is produced. */
  const StatusOk: int := 200

  /** ASCII punctuation: the four runs of printable characters that are neither letters, digits nor space. */
  predicate IsPunct(c: char) {
    ('!' <= c <= '/') || (':' <= c <= '@') || ('[' <= c <= '`') || ('{' <= c <= '~')
  }

  /** The ASCII characters from `lo` to `hi`, in order. */
  function Span(lo: char, hi: char): (r: string)
    requires lo <= hi <= '\U{7F}'
    ensures |r| == hi as int - lo as int + 1
    ensures forall i :: 0 <= i < |r| ==> r[i] as int == lo as int + i
  {
    seq(hi as int - lo as int + 1, i requires 0 <= i <= hi as int - lo as int => (lo as int + i) as char)
  }

  lemma InSpan(lo: char, hi: char, c: char)
    requires lo <= hi <= '\U{7F}'
    ensures c in Span(lo, hi) <==> lo <= c <= hi
  {
    if lo <= c <= hi {
      assert Span(lo, hi)[c as int - lo as int] == c;
    }
  }

  /** The runs are exactly Python's `string.punctuation`. */
  lemma PunctuationRuns(c: char)
    ensures IsPunct(c) <==> c in Punctuation
  {
    assert Punctuation == Span('!', '/') + Span(':', '@') + Span('[', '`') + Span('{', '~');
    InSpan('!', '/', c);
    InSpan(':', '@', c);
    InSpan('[', '`', c);
    InSpan('{', '~', c);
  }

  /** `a` is `b` with some characters left out, the rest in their original order. */
  predicate IsSubsequence(a: string, b: string)
    decreases |b|
  {
    if |a| == 0 then true
    else if |b| == 0 then false
    else if a[0] == b[0] then IsSubsequence(a[1..], b[1..])
    else IsSubsequence(a, b[1..])
  }

  /**
   `r` is `s` with its punctuation dropped: every other character of `s`
   stays, in its original order and as often as it occurs in `s`.
   */
  predicate PunctDropped(r: string, s: string) {
    IsSubsequence(r, s) && forall c :: !IsPunct(c) ==> multiset(r)[c] == multiset(s)[c]
  }

  /**
   `s.translate(str.maketrans('', '', string.punctuation))`: the punctuation
   goes, and every other character stays, as often as it occurred.
   */
  function DeletePunct(s: string): (r: string)
    ensures forall i :: 0 <= i < |r| ==> !IsPunct(r[i])
    ensures |r| <= |s|
  {
    if |s| == 0 then ""
    else
      (if IsPunct(s[0]) then "" else [s[0]]) + DeletePunct(s[1..])
  }

  /** Each character other than punctuation is kept as often as it occurs; nothing is added. */
  lemma {:induction false} DeletePunctCounts(s: string)
    ensures multiset(DeletePunct(s)) <= multiset(s)
    ensures forall c :: !IsPunct(c) ==> multiset(DeletePunct(s))[c] == multiset(s)[c]
  {
    if |s| > 0 {
      DeletePunctCounts(s[1..]);
      assert s == [s[0]] + s[1..];
      assert multiset(s) == multiset{s[0]} + multiset(s[1..]);
    }
  }

  /** The cleaning step of the pipeline: lower-case, then drop punctuation. */
  function Clean(s: string): string {
    DeletePunct(Lower(s))
  }

  /** Line 15 of `transcribe_audio` followed by line 16. */
  function Normalize(segments: seq<string>): (r: string)
    ensures forall i :: 0 <= i < |r| ==> !IsPunct(r[i]) && !IsUpper(r[i])
    ensures |r| <= |Join(" ", segments)|
  {
    CleanIsClean(Strip(Join(" ", segments)));
    Clean(Strip(Join(" ", segments)))
  }

  /**
   Every character of the stripped, lower-cased join that is not punctuation
   survives, in its original order and as often as it occurred, and nothing
   else does.
   */
  lemma NormalizeKeepsText(segments: seq<string>)
    ensures PunctDropped(Normalize(segments), Lower(Strip(Join(" ", segments))))
  {
    var t := Lower(Strip(Join(" ", segments)));
    DeletePunctInOrder(t);
    DeletePunctCounts(t);
  }

  /**
   `transcribe_audio(url)` given the status of the download and the segments
   the speech model hears: no transcript unless the download answered 200 (the
   function then falls off its end and returns `None`).
   */
  function TranscribeAudio(status: int, segments: seq<string>): (r: Option<string>)
    ensures r.Some? <==> status == StatusOk
    ensures r.Some? ==> forall i :: 0 <= i < |r.value| ==> !IsPunct(r.value[i]) && !IsUpper(r.value[i])
    ensures r.Some? ==> |r.value| <= |Join(" ", segments)|
    ensures r.Some? ==> PunctDropped(r.value, Lower(Strip(Join(" ", segments))))
  {
    if status == StatusOk then
      NormalizeKeepsText(segments);
      Some(Normalize(segments))
    else None
  }

  lemma LowerHasNoUpper(s: string)
    ensures forall i :: 0 <= i < |Lower(s)| ==> !IsUpper(Lower(s)[i])
  {
  }

  /** What cleaning leaves: no ASCII punctuation, no upper-case ASCII letter, no extra length. */
  lemma CleanIsClean(s: string)
    ensures forall i :: 0 <= i < |Clean(s)| ==> !IsPunct(Clean(s)[i]) && !IsUpper(Clean(s)[i])
    ensures |Clean(s)| <= |s|
  {
    var t := Lower(s);
    LowerHasNoUpper(s);
    var r := DeletePunct(t);
    DeletePunctCounts(t);
    forall i | 0 <= i < |r|
      ensures !IsUpper(r[i])
    {
      assert r[i] in multiset(r);
      assert r[i] in t;
    }
  }

  /** The kept characters stay in their original order. */
  lemma {:induction false} DeletePunctInOrder(s: string)
    ensures IsSubsequence(DeletePunct(s), s)
  {
    if |s| > 0 {
      DeletePunctInOrder(s[1..]);
      var r := DeletePunct(s);
      if !IsPunct(s[0]) {
        assert r[0] == s[0] && r[1..] == DeletePunct(s[1..]);
      } else {
        assert r == DeletePunct(s[1..]);
        assert |r| > 0 ==> r[0] != s[0];
      }
    }
  }

  lemma {:induction false} DeletePunctKeepsClean(s: string)
    requires forall i :: 0 <= i < |s| ==> !IsPunct(s[i])
    ensures DeletePunct(s) == s
  {
    if |s| > 0 {
      DeletePunctKeepsClean(s[1..]);
      assert [s[0]] + s[1..] == s;
    }
  }

  /** Cleaning a second time changes nothing. */
  lemma {:induction false} CleanIdempotent(s: string)
    ensures Clean(Clean(s)) == Clean(s)
  {
    var once := Clean(s);
    CleanIsClean(s);
    assert Lower(once) == once;
    DeletePunctKeepsClean(once);
  }

  lemma {:induction false} DeletePunctAppend(a: string, b: string)
    ensures DeletePunct(a + b) == DeletePunct(a) + DeletePunct(b)
    decreases |a|
  {
    if |a| > 0 {
      var head := if IsPunct(a[0]) then "" else [a[0]];
      calc {
        DeletePunct(a + b);
        { assert (a + b)[0] == a[0] && (a + b)[1..] == a[1..] + b; }
        head + DeletePunct(a[1..] + b);
        { DeletePunctAppend(a[1..], b); }
        head + (DeletePunct(a[1..]) + DeletePunct(b));
        (head + DeletePunct(a[1..])) + DeletePunct(b);
      }
    } else {
      assert a + b == b;
    }
  }

  /** A subsequence never holds a character more often than the sequence it is taken from. */
  lemma {:induction false} SubsequenceCounts(r: string, s: string)
    requires IsSubsequence(r, s)
    ensures multiset(r) <= multiset(s)
    decreases |s|
  {
    if |r| > 0 {
      assert s == [s[0]] + s[1..];
      if r[0] == s[0] {
        SubsequenceCounts(r[1..], s[1..]);
        assert r == [r[0]] + r[1..];
      } else {
        SubsequenceCounts(r, s[1..]);
      }
    }
  }

  /**
   `PunctDropped` fixes the result: the only punctuation-free text that keeps
   every other character of `s` in order and as often is `DeletePunct(s)`.
   */
  lemma {:induction false} PunctDroppedExact(r: string, s: string)
    requires PunctDropped(r, s)
    requires forall i :: 0 <= i < |r| ==> !IsPunct(r[i])
    ensures r == DeletePunct(s)
    decreases |s|
  {
    if |s| > 0 {
      var c := s[0];
      assert s == [c] + s[1..];
      if IsPunct(c) {
        assert |r| > 0 ==> r[0] != c;
        forall d | !IsPunct(d)
          ensures multiset(r)[d] == multiset(s[1..])[d]
        {
          assert multiset(s)[d] == multiset(s[1..])[d];
        }
        PunctDroppedExact(r, s[1..]);
      } else if |r| > 0 && r[0] == c {
        assert r == [c] + r[1..];
        forall d | !IsPunct(d)
          ensures multiset(r[1..])[d] == multiset(s[1..])[d]
        {
          assert multiset(r)[d] == multiset([c])[d] + multiset(r[1..])[d];
          assert multiset(s)[d] == multiset([c])[d] + multiset(s[1..])[d];
        }
        forall i | 0 <= i < |r[1..]|
          ensures !IsPunct(r[1..][i])
        {
          assert r[1..][i] == r[i + 1];
        }
        PunctDroppedExact(r[1..], s[1..]);
      } else if |r| > 0 {
        SubsequenceCounts(r, s[1..]);
      }
    }
  }

  /**
   Punctuation goes after stripping, so the space before a trailing punctuation
   mark stays at the edge of the transcript.
   */
  lemma EdgeSpaceSurvives(w: string, p: char)
    requires |w| > 0 && !IsSpace(w[0])
    requires forall i :: 0 <= i < |w| ==> !IsPunct(w[i])
    requires IsPunct(p)
    ensures Normalize([w + " " + [p]]) == Lower(w) + " "
  {
    var heard := w + " " + [p];
    assert Join(" ", [heard]) == heard;
    StripUnpadded(heard);
    assert Lower(heard) == Lower(w) + " " + [p];
    DeletePunctAppend(Lower(w) + " ", [p]);
    DeletePunctKeepsClean(Lower(w) + " ");
  }
}
